=== FILE: README.md ===
# MapReduce coordinator and worker, modelled in Dafny

This project models the MapReduce lab implementation in `src/mr`.

The **coordinator** hands out map and then reduce tasks over two buffered Go channels of task ids. It counts success reports in two ledgers: a per-phase total and a per-task counter. A timer re-queues any task whose counter is still zero ten seconds after it was handed out. The coordinator is modelled as a sequential transition system:
- `GetTask`, `TaskSuccess`, a firing monitor timer and `Done` are the events.
- Each event is a pure function from a state to one of three outcomes: a new state, "blocks" (the goroutine would wait) or "panics" (the Go runtime would abort).
- Channel receives, sends and closes follow Go's rules for buffered channels (`Channel`).

The proofs about the coordinator:
- An invariant (`CoordinatorInv.Inv`) holds in every state reachable from `MakeCoordinator`:
  - each ledger total equals the sum of its task counters;
  - no task is ever queued or monitored twice;
  - every task whose counter is zero is either queued or monitored;
  - a queue is closed only after its total has reached the task count.
- Under the invariant, a monitor never blocks on a full queue.
- Under the invariant, `GetTask` never answers WAIT: an idle worker blocks inside the call.
- With each handler run to completion as one step, a panic on a closed channel is only possible once some task has been counted twice.
- A concrete trace (`CoordinatorScenarios`) shows exactly that: a straggler's duplicate report opens the map/reduce barrier while a map task has never succeeded.
- Two more scenarios replay the halves of concurrent handlers. They show that once handlers interleave, both panics also happen with every task counted exactly once.

The **worker** is modelled as well:
- its poll loop's reaction to each reply;
- the map task: FNV-1a `ihash`, partition by `ihash(key) % NReduce`, one `mr-m-r` record file per bucket;
- the reduce task: read `mr-i-r` for every map task, sort by key, group runs of equal keys, apply Reduce, write `mr-out-r`, and delete the inputs once the report is acknowledged.

Files live on a `Disk` value with three namespaces: inputs, intermediate record files and outputs. The user's Map and Reduce functions are parameters.

The proofs about the worker:
- `Pipeline.RunJob` covers a fault-free job that runs every map task and then every reduce task. For each key of bucket `r`, its `mr-out-r` line holds Reduce applied to exactly the multiset of values that the map tasks emitted for that key.
- `Protocol.RepliesUnderstood` shows that every reply a coordinator in a reachable state sends is one the worker handles without aborting.

## Model

| member | source | states |
|---|---|---|
| Rpc.ParseTaskType | src/mr/rpc.go:18-19 | Only 1 (MAPPER) and 2 (REDUCER) are task types. Every other integer is none. |
| Rpc.ParseCode | src/mr/rpc.go:21-24 | Pins down the model's encoding of the `Code` datatype; the source never parses a code but compares `Code` with the constants. Only 1..4 are response codes (MAPPER_TASK, REDUCE_TASK, WAIT, DONE), and a decoded code encodes back to the same integer. |
| Rpc.CodesRoundTrip | src/mr/rpc.go:17-25 | Every task type and every code decodes from its own constant. |
| Channel.Receive | src/mr/coordinator.go:56-57 | A receive yields the oldest buffered id even after close. Only an empty closed channel reports `ok == false`. An empty open channel blocks. |
| Channel.Send | src/mr/coordinator.go:44 | A send on a closed channel panics. A send on a full channel blocks. Otherwise the id joins the back of the buffer. |
| Channel.Close | src/mr/coordinator.go:105 | Closing a closed channel panics. Closing keeps the buffered ids. |
| Channel.SendThenReceive | src/mr/coordinator.go:44-57 | On an empty channel, an id that is sent comes back first (FIFO). |
| Coordinator.MakeCoordinator | src/mr/coordinator.go:150-169 | Panics exactly when nReduce < 0 and succeeds otherwise. Then both queues hold every task id once, are open, and have capacity equal to the task count. All counters are zero and no monitor is pending. |
| Coordinator.GetTask | src/mr/coordinator.go:54-94 | The map queue comes first: while it holds an id, that id is handed out (an out-of-range id aborts the handler). A map reply carries the head of the map queue with its file name, and a monitor starts for it. Once the map queue is drained and closed and the map total is reached, queued reduce work is handed out. A reduce reply is only given once the map total reaches the map task count. DONE (with message "done") is given exactly when both queues are drained and closed and both totals are reached. WAIT is answered exactly when a queue reports closed while its phase total is short. A call blocks exactly on an empty open queue it reaches. |
| Coordinator.TaskSuccess | src/mr/coordinator.go:96-112 | An unknown task type changes nothing. A report succeeds exactly when its id is in range and it does not close a closed queue; it can fail only by those two panics. On success the phase total and the task's counter each rise by one. The queue is closed iff it was closed already or the total reached the task count, and a close of a closed queue panics. A reduce close raises the done signal. The other phase is untouched. |
| Coordinator.MonitorFires | src/mr/coordinator.go:38-52 | The task is re-queued exactly when its counter is still zero: this panics on a closed queue and blocks on a full one. Otherwise the monitor just ends. It succeeds exactly when the id is in range and either the counter is non-zero or the queue is open with room, and it can fail only by an index out of range or a send on a closed queue. |
| Coordinator.Done | src/mr/coordinator.go:135-143 | True only when a finished reduce report was waiting on `done`, which it then consumes. False leaves the state unchanged. When a report is waiting and the `select` picks the `done` case, the answer is true. |
| CoordinatorInv.InitInv | src/mr/coordinator.go:150-169 | A freshly made coordinator satisfies the invariant. |
| CoordinatorInv.GetTaskInv | src/mr/coordinator.go:54-94 | Under the invariant, GetTask never indexes out of range, and its successor state keeps the invariant. |
| CoordinatorInv.NeverWaits | src/mr/coordinator.go:68-89 | Under the invariant GetTask never answers WAIT. It answers only MAPPER_TASK, REDUCE_TASK or DONE, because a queue is closed only once its total has reached the task count. |
| CoordinatorInv.TaskSuccessInv | src/mr/coordinator.go:96-112 | A success report that does not panic keeps the invariant. |
| CoordinatorInv.ClosePanicIsLateReport | src/mr/coordinator.go:104-110 | With handlers run one at a time, a close-of-closed panic arrives only after the phase total reached the task count, and it leaves some task counted at least twice. |
| CoordinatorInv.MonitorInv | src/mr/coordinator.go:38-52 | Under the invariant a firing monitor never indexes out of range and never blocks on a full queue. Its successor state keeps the invariant. |
| CoordinatorInv.MonitorPanicMeansDoubleCount | src/mr/coordinator.go:41-50 | With handlers run one at a time, a monitor panics only by sending on a closed queue. It does so for a task that never succeeded, while another task of the phase was counted twice. |
| CoordinatorInv.DoneOnlyAfterAllReduces | src/mr/coordinator.go:107-110 | `Done()` is true, whichever way its `select` goes, only after the reduce total reached the reduce task count and the reduce queue was closed. |
| CoordinatorInv.StepInv | src/mr/coordinator.go:38-112 | Every event keeps the invariant, and a monitor that is due never blocks. |
| CoordinatorInv.RunInv | src/mr/coordinator.go:38-112 | Every sequence of events keeps the invariant. |
| CoordinatorInv.Reachable | src/mr/coordinator.go:12-24 | Every state reachable from MakeCoordinator satisfies the invariant. |
| CoordinatorScenarios.DuplicateReportOpensBarrier | src/mr/coordinator.go:96-106 | With two files, two counted reports for map task 0 close the map queue while task 1 never succeeded. GetTask then hands out the reduce task, and task 1's monitor panics on the closed queue. |
| CoordinatorScenarios.InterleavedReportsCloseTwice | src/mr/coordinator.go:96-106 | Run in turn, the final reports of map tasks 0 and 1 close the map queue once without a panic. When both atomic adds come before either load, both handlers close the queue and the second close panics, although each task was counted once. |
| CoordinatorScenarios.MonitorRaceSendsOnClosed | src/mr/coordinator.go:38-45 | Task 0's monitor loads a zero counter. Then the reports of tasks 1 and 0 close the map queue, and the monitor's send hits a closed queue, although each task was counted once. |
| Fnv.IHash | src/mr/worker.go:21-25 | The hash is always in [0, 2^31). |
| Fnv.Bucket | src/mr/worker.go:93 | The bucket index is in [0, NReduce). |
| Fnv.Xor8Bits | src/mr/worker.go:22-23 | The byte mixed into the hash state is the bitwise xor: for each of the eight bits, the result's bit is set iff exactly one operand's bit is set. |
| Fnv.AbsorbConcat | src/mr/worker.go:22-23 | Hashing bytes in two writes equals hashing them in one. |
| Fnv.TestVectors | src/mr/worker.go:22-24 | Agrees with the published FNV-1a 32-bit vectors: "" gives 0x811c9dc5 and "a" gives 0xe40c292c. The mask clears the top bit. |
| KeyOrder.LessIrreflexive | src/mr/worker.go:33 | No key is below itself under Go's byte-wise string `<`. |
| KeyOrder.LessTransitive | src/mr/worker.go:33 | Go's string `<` is transitive. |
| KeyOrder.LessTotal | src/mr/worker.go:33 | Of two different keys, one is below the other. |
| KeyOrder.SortByKey | src/mr/worker.go:146 | The result is sorted by key and is a permutation of the input. |
| Naming.ParseDecimalInverts | src/mr/worker.go:83 | Reading back the `%d` digits of a number gives the number. |
| Naming.IntermediateNameInjective | src/mr/worker.go:83 | Distinct (map task, bucket) pairs, negative numbers included, never share an `mr-m-r` name. |
| Naming.OutputNameInjective | src/mr/worker.go:148 | Distinct reduce tasks never share an `mr-out-r` name. |
| Naming.NamesDisjoint | src/mr/worker.go:116-148 | No intermediate file name is an output file name. |
| Naming.Examples | src/mr/worker.go:83 | Names print as Go prints them: `mr-0-1`, `mr-12-3`, `mr--1-2` and `mr-out-0`. |
| Partition.PartitionPairs | src/mr/worker.go:92-101 | Bucket r receives exactly the pairs whose key hashes to r, in emission order. Together the buckets hold every emitted pair exactly as often as it was emitted. |
| Partition.RoutedToOwnBucket | src/mr/worker.go:93 | A pair lands only in the bucket of its key, and every copy of it lands there. |
| Records.Decode | src/mr/worker.go:123-130 | The decode loop returns the pairs of the records before the first undecodable one. |
| Records.Encode | src/mr/worker.go:95 | One record per pair, in emission order, each holding its pair; `Records.DecodeEncode` is its inverse. |
| Records.DecodeEncode | src/mr/worker.go:95-130 | Decoding what the encoder wrote returns exactly the written pairs (keys and values taken as valid UTF-8). |
| Reduce.RunEnd | src/mr/worker.go:152-155 | Returns the end of the maximal run of keys equal to the key at i. |
| Reduce.RunValues | src/mr/worker.go:156-159 | Collects the values of that run in order. |
| Reduce.ValuesOfPermutation | src/mr/worker.go:146 | Sorting does not change the multiset of values of any key. |
| Reduce.GroupAndReduce | src/mr/worker.go:150-166 | For sorted input: one line per distinct key, in strictly increasing key order. Each line holds Reduce of that key and all of its values. |
| Worker.React | src/mr/worker.go:51-68 | A failed call is fatal. DONE with message "done" stops. WAIT polls again. Any other reply is dispatched on its task type alone, and an unknown type is fatal. |
| Worker.DoneNeedsMessage | src/mr/worker.go:57-68 | A DONE reply without the message "done" falls through to the task-type dispatch. |
| Worker.WriteBuckets | src/mr/worker.go:81-84 | File `mr-m-r` gets bucket r's records for each r. Every other file is unchanged. |
| Worker.RunMapTask | src/mr/worker.go:68-111 | Failure cases: a missing input, a negative NReduce, and pairs with NReduce = 0 each crash the worker before writing anything. On success, each bucket file decodes to exactly the pairs routed to it, no other file changes, and the report is (MAPPER, TaskId). |
| Worker.Collect | src/mr/worker.go:114-144 | The read fails exactly when some `mr-i-r` with i < NMapper is missing, and it then names the first missing file. |
| Worker.SortAndReduce | src/mr/worker.go:146-166 | One line per key read, in increasing key order. Each line's value is Reduce applied to its key and to some ordering of exactly the values read for that key. |
| Worker.RemoveInputs | src/mr/worker.go:176-182 | Deletes exactly the files `mr-i-r` with i < NMapper. |
| Worker.RunReduceTask | src/mr/worker.go:113-182 | Crashes exactly when an input file is missing. Otherwise `mr-out-r` gets the grouped, reduced lines of everything read, and each line is Reduce applied to its key and to some ordering of exactly the values read for it. The inputs are deleted iff the report was acknowledged. |
| Worker.RunPolled | src/mr/worker.go:68-182 | A map or reduce reply runs its task. On success the report is the reply's (task type, task id), the inputs are untouched and outputs stay. A failure is one of that task's crash cases. |
| Worker.Serve | src/mr/worker.go:46-187 | The loop stops only at DONE or at a crash. Every map or reduce reply before the end runs its task and is reported, in order, with its (task type, task id), and the loop goes on. A death at a map reply means a missing input, a negative NReduce, or pairs with NReduce = 0. A death at a reduce reply means a missing `mr-i-r` file. The inputs are never touched. Outputs once written stay. A worker told only to wait changes nothing. |
| Pipeline.ValuesOfRouted | src/mr/worker.go:92-95 | A key's values in its own bucket are all its emitted values. Other buckets hold none of them. |
| Pipeline.ValuesOfGathered | src/mr/worker.go:114-130 | Reduce task r reads, for each key of bucket r, every value that any map task emitted for it. |
| Pipeline.KeySetGathered | src/mr/worker.go:114-130 | The keys reduce task r reads are exactly the emitted keys that hash to r. |
| Pipeline.CollectMapOutputs | src/mr/worker.go:114-130 | With every map task's files in place, the read loop finds them all and returns the gathered bucket. |
| Pipeline.MapPhase | src/mr/worker.go:68-111 | After every map task has run once, every `mr-i-r` file decodes to bucket r of map task i's output. |
| Pipeline.ReduceStep | src/mr/worker.go:113-182 | One reduce task writes its bucket's output. It leaves the other outputs and the later buckets' files in place, and deletes its own inputs. |
| Pipeline.RunJob | src/mr/worker.go:68-182 | After a fault-free job, every `mr-out-r` holds one line per key of bucket r, in increasing order. Each line is Reduce applied to its key and to some ordering of all the values emitted for it. No intermediate file of the job remains: every `mr-i-r` with i below the number of inputs and r below NReduce is gone. Other `mr-*` files are not touched. |
| Protocol.RepliesUnderstood | src/mr/coordinator.go:54-94 | Every reply from a coordinator satisfying the invariant makes the worker map, reduce or stop, never abort. Task replies name ids in range and are the replies a job run consumes. |

## Left out

- The RPC transport (`server`, `call`, `coordinatorSock`, the Unix socket) is not modelled. Replies and acknowledgements are inputs to the worker model.
- `Example`/`CallExample` and `GetTaskRequest.Time` are left out. They are scaffolding, and `GetTask` ignores the request.
- Concurrency is not modelled: goroutines, the ten-second `time.Sleep` in `monitorTask`, and the 10 ms poll sleep. Events are interleaved one at a time, each handler running to completion, and an event that would block is skipped.
- Coordinator.TaskSuccess: the handler is one atomic step. In the source its atomic adds (lines 98-102) and its load-and-close (lines 104-110) are separate, so two concurrent final reports can both add, both see the total reached and both close the queue; the second close panics with every task counted once. `CoordinatorScenarios.InterleavedReportsCloseTwice` replays this with the handler's halves.
- Coordinator.MonitorFires: the monitor is one atomic step. In the source its load (line 42 or 48) and its send (line 44 or 49) are separate, so a report can close the queue in between and the send then panics with every task counted once. `CoordinatorScenarios.MonitorRaceSendsOnClosed` replays this.
- CoordinatorInv.ClosePanicIsLateReport: holds for handlers run one at a time only. Under the interleaving described for `Coordinator.TaskSuccess` a double close happens with no task counted twice.
- CoordinatorInv.MonitorPanicMeansDoubleCount: holds for handlers run one at a time only. Under the interleaving described for `Coordinator.MonitorFires` a monitor's send panics with no task counted twice.
- The `done` channel is unbuffered. A finished reduce report waits on it until `Done()` takes the value. This is modelled as a flag that `Done()` consumes, and the blocked handler goroutine is not modelled. `Done()`'s `select` against a zero-length timer picks at random when both cases are ready; the pick is a parameter of `Coordinator.Done`, and the timer is taken to be always ready.
- Counters are unbounded integers, so `int32` wrap-around of `nMapperSuccs`, `nReduceSuccs` and the per-task counters is not modelled, nor is the `int32(c.nMapper)` cast. Wrap-around would need 2^31 reports.
- A panic inside an RPC handler ends the coordinator process. The model returns the fault and drops the state.
- Real file I/O, JSON encoding and the `%v %v\n` text format are abstracted:
  - intermediate files are sequences of records, where a record is a pair or undecodable;
  - output files are sequences of (key, value) lines.
  - File-system failures are not modelled: every `os.Create`, write and `os.Remove` is taken to succeed. The source discards the errors of `os.Create` (worker.go lines 83 and 149), `fmt.Fprintf` and `os.Remove`, and a failure has two consequences that the model does not show:
    - A failed `os.Create` of an `mr-m-r` file leaves a nil file. The first `Encode` into that bucket then fails, and the worker dies with `log.Fatal` (lines 95-97) after writing part of its buckets.
    - A failed `os.Create` of `mr-out-r` loses the output silently, and the reduce task is still reported as a success (lines 168-172).
- The three kinds of file share one directory in the source. The model keeps them in separate namespaces, so it does not model an input file named like `mr-0-0`.
- If dialling the coordinator fails while a worker reports success, `call` ends the worker with `log.Fatal` after its files are written. The model only knows whether the report was acknowledged.
- `sort.Sort` is not stable, so the order in which Reduce receives one key's values is unspecified. `KeyOrder.SortByKey` is a stable insertion sort standing for it. The contracts of `Worker.SortAndReduce`, `Worker.RunReduceTask` and `Pipeline.RunJob` only say that each line is Reduce applied to some ordering of the key's values (`Reduce.ReducedFrom`), which holds for any sort.
- `Rpc`: the unused `SUCCESS = 0` constant is not modelled.
- `Fnv.TestVectors`: longer published vectors (e.g. "foobar") are not stated, because unfolding six rounds of literal arithmetic is too costly for the solver. `AbsorbConcat` covers multi-byte input generally.
- `Worker.Serve`: the source loops forever. The model consumes a finite script of replies and ends with `OutOfPolls` when the script runs out, so an endless run is described by its finite prefixes.
- `Pipeline.RunJob`: it assumes every input file exists and NReduce > 0, because it states the fault-free run. The crash cases are stated separately by `Worker.RunMapTask` and `Worker.RunReduceTask`.
- `GetTask` receives from the queues with plain receives (`v, ok := <-ch`, coordinator.go lines 56 and 74), which block on an empty open channel; the model returns `Parked` there. As a consequence, both WAIT answers (lines 68-72 and 85-89) are unreachable (`CoordinatorInv.NeverWaits`): an idle worker waits inside the call instead of polling again.
- Records.DecodeEncode: holds when keys and values are valid UTF-8. `encoding/json` replaces each invalid byte of a string with U+FFFD when encoding, so such a pair does not decode to itself; the model's record files carry the bytes unchanged.

=== FILE: channel.dfy ===
/** A Go buffered channel of task ids: a FIFO buffer, its capacity and
    whether it has been closed. Each operation reports the three ways Go
    can react: it succeeds, it would block the calling goroutine, or it
    panics. */
module Channel {
  import opened Common

  datatype Chan = Chan(buf: seq<int>, cap: nat, closed: bool)

  /** Outcome of `v, ok := <-ch`. */
  datatype Recv = Got(id: int, rest: Chan) | Closed | Blocked

  /** A receive yields the oldest buffered item even on a closed channel;
      only an empty closed channel reports `ok == false`, and an empty open
      one blocks. */
  function Receive(ch: Chan): (r: Recv)
    ensures r.Got? <==> |ch.buf| > 0
    ensures r.Closed? <==> |ch.buf| == 0 && ch.closed
    ensures r.Blocked? <==> |ch.buf| == 0 && !ch.closed
    ensures r.Got? ==> [r.id] + r.rest.buf == ch.buf
    ensures r.Got? ==> r.rest.cap == ch.cap && r.rest.closed == ch.closed
  {
    if |ch.buf| > 0 then Got(ch.buf[0], ch.(buf := ch.buf[1..]))
    else if ch.closed then Closed
    else Blocked
  }

  /** Outcome of `ch <- v`. */
  datatype SendResult = Sent(ch: Chan) | SendOnClosed | SendBlocks

  /** Sending on a closed channel panics; on a full open one it blocks;
      otherwise the item joins the back of the buffer. */
  function Send(ch: Chan, v: int): (r: SendResult)
    ensures r.SendOnClosed? <==> ch.closed
    ensures r.SendBlocks? <==> !ch.closed && |ch.buf| >= ch.cap
    ensures r.Sent? ==> r.ch.buf == ch.buf + [v] && r.ch.cap == ch.cap && !r.ch.closed
  {
    if ch.closed then SendOnClosed
    else if |ch.buf| >= ch.cap then SendBlocks
    else Sent(ch.(buf := ch.buf + [v]))
  }

  /** `close(ch)`: None stands for the panic on an already-closed channel.
      Buffered items stay receivable. */
  function Close(ch: Chan): (r: Option<Chan>)
    ensures r.None? <==> ch.closed
    ensures r.Some? ==> r.value.closed && r.value.buf == ch.buf && r.value.cap == ch.cap
  {
    if ch.closed then None else Some(ch.(closed := true))
  }

  /** A send followed by a receive on a channel that held nothing hands the
      same item back and leaves the channel empty again. */
  lemma SendThenReceive(ch: Chan, v: int)
    requires ch.buf == [] && !ch.closed && ch.cap > 0
    ensures Send(ch, v).Sent?
    ensures Receive(Send(ch, v).ch) == Got(v, ch)
  {
  }
}

=== FILE: common.dfy ===
/** Small shared vocabulary: an optional value and the byte type that Go
    strings are made of. */
module Common {

  /** A value that may be absent. */
  datatype Option<+T> = None | Some(value: T)

  /** One byte of a Go string, compared as an unsigned number, which is
      the byte-wise order Go uses for `<` on strings. */
  newtype Byte = x: int | 0 <= x < 256

  /** A Go string viewed as its bytes. */
  type Bytes = seq<Byte>
}

=== FILE: coordinator.dfy ===
/** The coordinator of src/mr/coordinator.go as a sequential transition
    system. Each RPC handler and each firing of a `monitorTask` timer is one
    atomic step on an immutable `State`; the sleeping monitor goroutines are
    kept in the state as a multiset so that a timer firing is a step chosen
    nondeterministically among them. Go's runtime panics (closing a closed
    channel, sending on a closed channel, an index out of range, a negative
    `make` size) end the coordinator and are reported as `Panics`. */
module Coordinator {
  import opened Common
  import opened Rpc
  import opened Channel
  import opened Ledger

  /** A sleeping `monitorTask(phase, id)` goroutine. */
  datatype Monitor = Monitor(phase: TaskType, id: int)

  /** Why the coordinator process dies. */
  datatype Fault = NegativeSize | IndexOutOfRange | CloseOfClosedChannel | SendOnClosedChannel

  /** The `Coordinator` struct plus the pending monitors. `doneSignal` is a
      `TaskSuccess` handler parked on the unbuffered `done` channel, waiting
      for `Done()` to take its value. */
  datatype State = State(
    files: seq<string>,
    mappers: Chan,
    reducers: Chan,
    nMapper: int,
    nReduce: int,
    nMapperSuccs: int,
    nReduceSuccs: int,
    tMapperStatus: seq<int>,
    tReduceStatus: seq<int>,
    doneSignal: bool,
    monitors: multiset<Monitor>)

  /** Result of a step that returns nothing to a caller. `Blocks` means the
      goroutine cannot proceed in this state. */
  datatype Outcome = Ok(next: State) | Blocks | Panics(fault: Fault)

  /** Result of a `GetTask` call. */
  datatype Dispatch = Answer(next: State, res: GetTaskResponse) | Parked | Aborted(fault: Fault)

  // ---------------------------------------------------------------------
  // Phase-indexed views of the state

  function Queue(c: State, p: TaskType): Chan {
    match p
    case Mapper => c.mappers
    case Reducer => c.reducers
  }

  function Status(c: State, p: TaskType): seq<int> {
    match p
    case Mapper => c.tMapperStatus
    case Reducer => c.tReduceStatus
  }

  function Total(c: State, p: TaskType): int {
    match p
    case Mapper => c.nMapperSuccs
    case Reducer => c.nReduceSuccs
  }

  function Size(c: State, p: TaskType): int {
    match p
    case Mapper => c.nMapper
    case Reducer => c.nReduce
  }

  function SetQueue(c: State, p: TaskType, q: Chan): State {
    match p
    case Mapper => c.(mappers := q)
    case Reducer => c.(reducers := q)
  }

  // ---------------------------------------------------------------------
  // MakeCoordinator

  /** The ids `0 .. n-1` in order, as the initial loops enqueue them. */
  function Ids(n: nat): (r: seq<int>)
    ensures |r| == n
    ensures forall i :: 0 <= i < n ==> r[i] == i
  {
    seq(n, i => i)
  }

  /** `MakeCoordinator(files, nReduce)`, without starting the RPC server. */
  function MakeCoordinator(files: seq<string>, nReduce: int): (r: Outcome)
    ensures r.Panics? <==> nReduce < 0
    ensures r.Ok? <==> nReduce >= 0
    ensures r.Ok? ==> var c := r.next;
      && c.files == files && c.nMapper == |files| && c.nReduce == nReduce
      && multiset(c.mappers.buf) == multiset(Ids(|files|)) && c.mappers.cap == |files|
      && multiset(c.reducers.buf) == multiset(Ids(nReduce)) && c.reducers.cap == nReduce
      && !c.mappers.closed && !c.reducers.closed
      && c.nMapperSuccs == 0 && c.nReduceSuccs == 0
      && |c.tMapperStatus| == |files| && (forall i :: 0 <= i < |files| ==> c.tMapperStatus[i] == 0)
      && |c.tReduceStatus| == nReduce && (forall i :: 0 <= i < nReduce ==> c.tReduceStatus[i] == 0)
      && !c.doneSignal && c.monitors == multiset{}
  {
    if nReduce < 0 then Panics(NegativeSize)
    else
      Ok(State(
        files,
        Chan(Ids(|files|), |files|, false),
        Chan(Ids(nReduce), nReduce, false),
        |files|, nReduce, 0, 0,
        seq(|files|, _ => 0), seq(nReduce, _ => 0),
        false, multiset{}))
  }

  // ---------------------------------------------------------------------
  // GetTask

  function MapperReply(c: State, id: int): GetTaskResponse
    requires 0 <= id < |c.files|
  {
    EmptyResponse.(taskType := Mapper.Value(), taskId := id, mapperFilename := c.files[id],
                   nMapper := c.nMapper, nReduce := c.nReduce, code := MapperTask.Value())
  }

  function ReducerReply(c: State, id: int): GetTaskResponse {
    EmptyResponse.(taskType := Reducer.Value(), taskId := id,
                   nMapper := c.nMapper, nReduce := c.nReduce, code := ReduceTask.Value())
  }

  const WaitReply := EmptyResponse.(code := Wait.Value())
  const DoneReply := EmptyResponse.(msg := "done", code := Code.Done.Value())

  /** Takes `id` out of phase `p`'s queue (leaving `rest`) and starts its
      monitor. */
  function Claim(c: State, p: TaskType, id: int, rest: Chan): State {
    SetQueue(c, p, rest).(monitors := c.monitors + multiset{Monitor(p, id)})
  }

  /** `GetTask`: a map task if the map queue yields one; WAIT while fewer
      map successes than map tasks have been counted; then a reduce task if
      the reduce queue yields one; WAIT while reduce successes are short;
      DONE otherwise. Both receives block on an empty open channel. */
  function GetTask(c: State): (r: Dispatch)
    // the map queue is received from first: while it holds an id, that id
    // is handed out (or, out of range, aborts the handler)
    ensures |c.mappers.buf| > 0 ==>
      if 0 <= c.mappers.buf[0] < |c.files| then r.Answer? && r.res.code == MapperTask.Value()
      else r == Aborted(IndexOutOfRange)
    // once the map queue reports closed and the barrier is open, queued
    // reduce work is handed out
    ensures |c.mappers.buf| == 0 && c.mappers.closed && c.nMapperSuccs >= c.nMapper && |c.reducers.buf| > 0 ==>
      r.Answer? && r.res.code == ReduceTask.Value()
    // WAIT exactly when a queue reports closed while its phase total is short
    ensures (r.Answer? && r.res.code == Wait.Value()) <==>
      && |c.mappers.buf| == 0 && c.mappers.closed
      && (|| c.nMapperSuccs < c.nMapper
          || (|c.reducers.buf| == 0 && c.reducers.closed && c.nReduceSuccs < c.nReduce))
    // a map claim hands out the head of the map queue and changes nothing else
    ensures r.Answer? && r.res.code == MapperTask.Value() ==>
      && |c.mappers.buf| > 0 && 0 <= c.mappers.buf[0] < |c.files|
      && r.res == GetTaskResponse(Mapper.Value(), c.mappers.buf[0], c.files[c.mappers.buf[0]],
                                  c.nMapper, c.nReduce, MapperTask.Value(), "")
      && r.next == c.(mappers := c.mappers.(buf := c.mappers.buf[1..]),
                      monitors := c.monitors + multiset{Monitor(Mapper, c.mappers.buf[0])})
    // the barrier: no reduce task before enough map successes
    ensures r.Answer? && r.res.code == ReduceTask.Value() ==>
      && c.nMapperSuccs >= c.nMapper
      && |c.reducers.buf| > 0
      && r.res == GetTaskResponse(Reducer.Value(), c.reducers.buf[0], "",
                                  c.nMapper, c.nReduce, ReduceTask.Value(), "")
      && r.next == c.(reducers := c.reducers.(buf := c.reducers.buf[1..]),
                      monitors := c.monitors + multiset{Monitor(Reducer, c.reducers.buf[0])})
    ensures c.nMapperSuccs < c.nMapper && r.Answer? ==> r.next.reducers == c.reducers
    // DONE exactly when both receives report closed and both totals are reached
    ensures (r.Answer? && r.res.code == Code.Done.Value()) <==>
      && |c.mappers.buf| == 0 && c.mappers.closed && c.nMapperSuccs >= c.nMapper
      && |c.reducers.buf| == 0 && c.reducers.closed && c.nReduceSuccs >= c.nReduce
    ensures r.Answer? && r.res.code == Code.Done.Value() ==> r.res.msg == "done" && r.next == c
    ensures r.Answer? && r.res.code == Wait.Value() ==> r.next == c
    ensures r.Answer? ==> r.res.code in {MapperTask.Value(), ReduceTask.Value(), Wait.Value(), Code.Done.Value()}
    // a call blocks only on an empty open queue
    ensures r.Parked? <==>
      || (|c.mappers.buf| == 0 && !c.mappers.closed)
      || (|c.mappers.buf| == 0 && c.nMapperSuccs >= c.nMapper && |c.reducers.buf| == 0 && !c.reducers.closed)
    ensures r.Aborted? ==> |c.mappers.buf| > 0 && !(0 <= c.mappers.buf[0] < |c.files|)
  {
    match Receive(c.mappers)
    case Blocked => Parked
    case Got(id, rest) =>
      if !(0 <= id < |c.files|) then Aborted(IndexOutOfRange)
      else Answer(Claim(c, Mapper, id, rest), MapperReply(c, id))
    case Closed =>
      if c.nMapperSuccs < c.nMapper then Answer(c, WaitReply)
      else
        match Receive(c.reducers)
        case Blocked => Parked
        case Got(id, rest) => Answer(Claim(c, Reducer, id, rest), ReducerReply(c, id))
        case Closed =>
          if c.nReduceSuccs < c.nReduce then Answer(c, WaitReply)
          else Answer(c, DoneReply)
  }

  // ---------------------------------------------------------------------
  // TaskSuccess

  /** Counts one success for task `id` of phase `p`. */
  function Record(c: State, p: TaskType, id: int): State
    requires 0 <= id < |Status(c, p)|
  {
    match p
    case Mapper =>
      c.(nMapperSuccs := c.nMapperSuccs + 1, tMapperStatus := c.tMapperStatus[id := c.tMapperStatus[id] + 1])
    case Reducer =>
      c.(nReduceSuccs := c.nReduceSuccs + 1, tReduceStatus := c.tReduceStatus[id := c.tReduceStatus[id] + 1])
  }

  /** `TaskSuccess(req)`: every report counts, whether or not the task was
      already done; the report that brings the phase total to the task
      count closes that phase's queue, and for the reduce phase also parks
      on the `done` channel. Any later report of the same phase closes the
      queue again, which panics. A report naming no task type is ignored. */
  function TaskSuccess(c: State, req: TaskSuccessRequest): (r: Outcome)
    ensures ParseTaskType(req.taskType).None? ==> r == Ok(c)
    // a report fails only by an index out of range or a second close
    ensures r.Panics? ==> r.fault == IndexOutOfRange || r.fault == CloseOfClosedChannel
    ensures ParseTaskType(req.taskType).Some? ==>
      var p := ParseTaskType(req.taskType).value;
      r.Ok? <==> 0 <= req.taskId < |Status(c, p)| && !(Queue(c, p).closed && Total(c, p) + 1 >= Size(c, p))
    ensures ParseTaskType(req.taskType).Some? ==>
      var p := ParseTaskType(req.taskType).value;
      && (r == Panics(IndexOutOfRange) <==> !(0 <= req.taskId < |Status(c, p)|))
      && (r == Panics(CloseOfClosedChannel) <==>
            0 <= req.taskId < |Status(c, p)| && Total(c, p) + 1 >= Size(c, p) && Queue(c, p).closed)
      && (r.Ok? ==>
            && Total(r.next, p) == Total(c, p) + 1
            && Status(r.next, p) == Status(c, p)[req.taskId := Status(c, p)[req.taskId] + 1]
            && Queue(r.next, p).buf == Queue(c, p).buf
            && (Queue(r.next, p).closed <==> Queue(c, p).closed || Total(c, p) + 1 >= Size(c, p))
            && (r.next.doneSignal <==> c.doneSignal || (p == Reducer && Total(c, p) + 1 >= Size(c, p)))
            && r.next.files == c.files && r.next.monitors == c.monitors
            && r.next.nMapper == c.nMapper && r.next.nReduce == c.nReduce
            && Queue(r.next, p).cap == Queue(c, p).cap)
    // the other phase is untouched
    ensures r.Ok? && req.taskType == Mapper.Value() ==>
      && r.next.reducers == c.reducers && r.next.nReduceSuccs == c.nReduceSuccs
      && r.next.tReduceStatus == c.tReduceStatus
    ensures r.Ok? && req.taskType == Reducer.Value() ==>
      && r.next.mappers == c.mappers && r.next.nMapperSuccs == c.nMapperSuccs
      && r.next.tMapperStatus == c.tMapperStatus
    ensures !r.Blocks?
  {
    match ParseTaskType(req.taskType)
    case None => Ok(c)
    case Some(p) =>
      if !(0 <= req.taskId < |Status(c, p)|) then Panics(IndexOutOfRange)
      else
        var c1 := Record(c, p, req.taskId);
        if Total(c1, p) >= Size(c1, p) then
          match Close(Queue(c1, p))
          case None => Panics(CloseOfClosedChannel)
          case Some(q) => Ok(SetQueue(c1, p, q).(doneSignal := c1.doneSignal || p == Reducer))
        else Ok(c1)
  }

  // ---------------------------------------------------------------------
  // monitorTask and Done

  /** A `monitorTask(phase, id)` timer fires: the task goes back into its
      queue exactly when its success counter is still zero; either way the
      monitor is gone afterwards. */
  function MonitorFires(c: State, m: Monitor): (r: Outcome)
    requires m in c.monitors
    // a monitor fails only by an index out of range or a send on a closed queue
    ensures r.Panics? ==> r.fault == IndexOutOfRange || r.fault == SendOnClosedChannel
    ensures var s := Status(c, m.phase); var q := Queue(c, m.phase);
      r.Ok? <==> 0 <= m.id < |s| && (s[m.id] != 0 || (!q.closed && |q.buf| < q.cap))
    ensures var s := Status(c, m.phase);
      && (r == Panics(IndexOutOfRange) <==> !(0 <= m.id < |s|))
      && (0 <= m.id < |s| && s[m.id] != 0 ==> r == Ok(c.(monitors := c.monitors - multiset{m})))
      && (0 <= m.id < |s| && s[m.id] == 0 ==>
            (r == Panics(SendOnClosedChannel) <==> Queue(c, m.phase).closed)
            && (r.Blocks? <==> !Queue(c, m.phase).closed && |Queue(c, m.phase).buf| >= Queue(c, m.phase).cap)
            && (r.Ok? ==> r.next == SetQueue(c, m.phase, Queue(c, m.phase).(buf := Queue(c, m.phase).buf + [m.id]))
                                       .(monitors := c.monitors - multiset{m})))
  {
    var c0 := c.(monitors := c.monitors - multiset{m});
    var s := Status(c, m.phase);
    if !(0 <= m.id < |s|) then Panics(IndexOutOfRange)
    else if s[m.id] != 0 then Ok(c0)
    else
      match Send(Queue(c, m.phase), m.id)
      case SendOnClosed => Panics(SendOnClosedChannel)
      case SendBlocks => Blocks
      case Sent(q) => Ok(SetQueue(c0, m.phase, q))
  }

  /** `Done()`: a `select` between the `done` channel and a zero-length
      timer. When both are ready Go picks one at random, so the choice is a
      parameter: `takeSignal` says whether the `done` case is the one picked
      when a finished `TaskSuccess` handler is waiting there. */
  function Done(c: State, takeSignal: bool): (r: (bool, State))
    ensures r.0 ==> c.doneSignal && r.1 == c.(doneSignal := false)
    ensures !r.0 ==> r.1 == c
    ensures c.doneSignal && takeSignal ==> r.0
    ensures !c.doneSignal ==> !r.0
  {
    if c.doneSignal && takeSignal then (true, c.(doneSignal := false)) else (false, c)
  }

  // ---------------------------------------------------------------------
  // Runs

  /** Everything that can happen to the coordinator next. */
  datatype Event = CallGetTask | CallTaskSuccess(req: TaskSuccessRequest) | TimerFires(m: Monitor) | CallDone(takeSignal: bool)

  function Step(c: State, e: Event): Outcome {
    match e
    case CallGetTask =>
      (match GetTask(c)
       case Answer(n, _) => Ok(n)
       case Parked => Blocks
       case Aborted(f) => Panics(f))
    case CallTaskSuccess(req) => TaskSuccess(c, req)
    case TimerFires(m) => if m in c.monitors then MonitorFires(c, m) else Blocks
    case CallDone(takeSignal) => Ok(Done(c, takeSignal).1)
  }

  /** Applies the events in order; an event that cannot proceed is skipped
      and the first panic ends the run. */
  function Run(c: State, evs: seq<Event>): Outcome
    decreases |evs|
  {
    if |evs| == 0 then Ok(c)
    else
      match Step(c, evs[0])
      case Ok(n) => Run(n, evs[1..])
      case Blocks => Run(c, evs[1..])
      case Panics(f) => Panics(f)
  }
}

=== FILE: coordinator_inv.dfy ===
/** The invariant the coordinator keeps between steps, and what it buys:
    every task that has not succeeded yet is either queued or watched by
    exactly one monitor, no task ever has two such copies, a re-enqueue
    never finds its queue full, and the phase totals are the sums of the
    per-task counters. */
module CoordinatorInv {
  import opened Common
  import opened Rpc
  import opened Channel
  import opened Ledger
  import opened Coordinator

  /** Copies of task `id` of phase `p` that can still be handed out: those
      in the queue plus the monitors that may put it back. */
  function Copies(q: Chan, mons: multiset<Monitor>, p: TaskType, id: int): nat {
    multiset(q.buf)[id] + mons[Monitor(p, id)]
  }

  /** The invariant of one phase, given its queue `q`, per-task counters
      `s`, total `total`, task count `n` and the pending monitors. */
  ghost predicate PhaseOk(q: Chan, s: seq<int>, total: int, n: int, mons: multiset<Monitor>, p: TaskType) {
    && n == |s| == q.cap
    && NonNegative(s)
    && total == Sum(s)
    && (forall k :: 0 <= k < |q.buf| ==> 0 <= q.buf[k] < |s|)
    && (forall id :: mons[Monitor(p, id)] > 0 ==> 0 <= id < |s|)
    && (forall id :: Copies(q, mons, p, id) <= 1)
    && (forall id :: 0 <= id < |s| && s[id] == 0 ==> Copies(q, mons, p, id) == 1)
    && (q.closed ==> total >= |s|)
  }

  ghost predicate Inv(c: State) {
    && c.nMapper == |c.files|
    && PhaseOk(c.mappers, c.tMapperStatus, c.nMapperSuccs, c.nMapper, c.monitors, Mapper)
    && PhaseOk(c.reducers, c.tReduceStatus, c.nReduceSuccs, c.nReduce, c.monitors, Reducer)
    && (c.doneSignal ==> c.reducers.closed)
  }

  lemma InvPhase(c: State, p: TaskType)
    requires Inv(c)
    ensures PhaseOk(Queue(c, p), Status(c, p), Total(c, p), Size(c, p), c.monitors, p)
  {
  }

  // ---------------------------------------------------------------------
  // Phase-level preservation

  /** Monitors of the other phase do not matter to a phase. */
  lemma PhaseOkFrame(q: Chan, s: seq<int>, total: int, n: int, mons: multiset<Monitor>, mons': multiset<Monitor>, p: TaskType)
    requires PhaseOk(q, s, total, n, mons, p)
    requires forall id :: mons'[Monitor(p, id)] == mons[Monitor(p, id)]
    ensures PhaseOk(q, s, total, n, mons', p)
  {
    forall id ensures Copies(q, mons', p, id) == Copies(q, mons, p, id) {
    }
  }

  /** Handing out the head of the queue moves one copy from the queue to a
      new monitor. */
  lemma ClaimOk(q: Chan, s: seq<int>, total: int, n: int, mons: multiset<Monitor>, p: TaskType)
    requires PhaseOk(q, s, total, n, mons, p)
    requires |q.buf| > 0
    ensures PhaseOk(q.(buf := q.buf[1..]), s, total, n, mons + multiset{Monitor(p, q.buf[0])}, p)
  {
    var id0 := q.buf[0];
    var q' := q.(buf := q.buf[1..]);
    var mons' := mons + multiset{Monitor(p, id0)};
    assert q.buf == [id0] + q'.buf;
    assert multiset(q.buf) == multiset{id0} + multiset(q'.buf);
    forall id ensures Copies(q', mons', p, id) == Copies(q, mons, p, id) {
    }
    forall k | 0 <= k < |q'.buf| ensures 0 <= q'.buf[k] < |s| {
      assert q'.buf[k] == q.buf[k + 1];
    }
  }

  /** Counting one success for task `id` keeps the phase invariant,
      provided the queue's contents stay and it is closed only at or past
      the threshold. */
  lemma RecordOk(q: Chan, q': Chan, s: seq<int>, total: int, n: int, mons: multiset<Monitor>, p: TaskType, id: int)
    requires PhaseOk(q, s, total, n, mons, p)
    requires 0 <= id < |s|
    requires q'.buf == q.buf && q'.cap == q.cap
    requires q'.closed ==> q.closed || total + 1 >= n
    ensures PhaseOk(q', s[id := s[id] + 1], total + 1, n, mons, p)
  {
    SumIncrement(s, id);
    forall i ensures Copies(q', mons, p, i) == Copies(q, mons, p, i) {
    }
  }

  /** A monitor whose task has succeeded goes away without a trace. */
  lemma DropMonitorOk(q: Chan, s: seq<int>, total: int, n: int, mons: multiset<Monitor>, p: TaskType, id: int)
    requires PhaseOk(q, s, total, n, mons, p)
    requires Monitor(p, id) in mons
    requires 0 <= id < |s| && s[id] != 0
    ensures PhaseOk(q, s, total, n, mons - multiset{Monitor(p, id)}, p)
  {
    var mons' := mons - multiset{Monitor(p, id)};
    forall i ensures Copies(q, mons', p, i) <= Copies(q, mons, p, i)
      && (i != id ==> Copies(q, mons', p, i) == Copies(q, mons, p, i)) {
    }
  }

  /** A monitor whose task has not succeeded turns back into a queued copy. */
  lemma RequeueOk(q: Chan, s: seq<int>, total: int, n: int, mons: multiset<Monitor>, p: TaskType, id: int)
    requires PhaseOk(q, s, total, n, mons, p)
    requires Monitor(p, id) in mons
    requires !q.closed && |q.buf| < q.cap
    ensures PhaseOk(q.(buf := q.buf + [id]), s, total, n, mons - multiset{Monitor(p, id)}, p)
  {
    var q' := q.(buf := q.buf + [id]);
    var mons' := mons - multiset{Monitor(p, id)};
    assert multiset(q'.buf) == multiset(q.buf) + multiset{id};
    forall i ensures Copies(q', mons', p, i) == Copies(q, mons, p, i) {
    }
    forall k | 0 <= k < |q'.buf| ensures 0 <= q'.buf[k] < |s| {
      if k < |q.buf| {
        assert q'.buf[k] == q.buf[k];
      }
    }
  }

  /** A monitor for task `id` means the task is not queued, so its queue
      holds at most `n - 1` distinct ids and has room for it. */
  lemma RoomOk(q: Chan, s: seq<int>, total: int, n: int, mons: multiset<Monitor>, p: TaskType, id: int)
    requires PhaseOk(q, s, total, n, mons, p)
    requires Monitor(p, id) in mons
    ensures |q.buf| < q.cap
  {
    assert Copies(q, mons, p, id) <= 1;
    assert multiset(q.buf)[id] == 0;
    assert 0 <= id < n;
    forall v ensures multiset(q.buf)[v] <= 1 {
      assert Copies(q, mons, p, v) <= 1;
    }
    forall k | 0 <= k < |q.buf| ensures q.buf[k] in Range(n) - {id} {
      assert q.buf[k] in multiset(q.buf);
    }
    DistinctBound(q.buf, Range(n) - {id});
    RangeSize(n);
    assert |Range(n) - {id}| == n - 1;
  }

  // ---------------------------------------------------------------------
  // Initial state

  lemma {:induction false} IdsCount(n: nat, id: int)
    ensures multiset(Ids(n))[id] == if 0 <= id < n then 1 else 0
  {
    if n > 0 {
      assert Ids(n) == Ids(n - 1) + [n - 1];
      IdsCount(n - 1, id);
    }
  }

  /** A freshly made coordinator satisfies the invariant. */
  lemma InitInv(files: seq<string>, nReduce: int)
    requires MakeCoordinator(files, nReduce).Ok?
    ensures Inv(MakeCoordinator(files, nReduce).next)
  {
    var c := MakeCoordinator(files, nReduce).next;
    SumZeros(|files|);
    SumZeros(nReduce);
    forall id ensures Copies(c.mappers, c.monitors, Mapper, id) == if 0 <= id < |files| then 1 else 0 {
      IdsCount(|files|, id);
    }
    forall id ensures Copies(c.reducers, c.monitors, Reducer, id) == if 0 <= id < nReduce then 1 else 0 {
      IdsCount(nReduce, id);
    }
  }

  // ---------------------------------------------------------------------
  // Steps

  /** Under the invariant `GetTask` never indexes `files` out of range and
      its successor state keeps the invariant. */
  lemma GetTaskInv(c: State)
    requires Inv(c)
    ensures !GetTask(c).Aborted?
    ensures GetTask(c).Answer? ==> Inv(GetTask(c).next)
  {
    if |c.mappers.buf| > 0 {
      var m := Monitor(Mapper, c.mappers.buf[0]);
      ClaimOk(c.mappers, c.tMapperStatus, c.nMapperSuccs, c.nMapper, c.monitors, Mapper);
      PhaseOkFrame(c.reducers, c.tReduceStatus, c.nReduceSuccs, c.nReduce, c.monitors, c.monitors + multiset{m}, Reducer);
    } else if c.mappers.closed && c.nMapperSuccs >= c.nMapper && |c.reducers.buf| > 0 {
      var m := Monitor(Reducer, c.reducers.buf[0]);
      ClaimOk(c.reducers, c.tReduceStatus, c.nReduceSuccs, c.nReduce, c.monitors, Reducer);
      PhaseOkFrame(c.mappers, c.tMapperStatus, c.nMapperSuccs, c.nMapper, c.monitors, c.monitors + multiset{m}, Mapper);
    }
  }

  /** Under the invariant `GetTask` never answers WAIT. A queue is closed
      only by the report that brings its total to the task count, so
      whenever a receive reports a closed queue the WAIT guard after it is
      already false, and before that the receive blocks. Both WAIT
      branches are dead code. */
  lemma NeverWaits(c: State)
    requires Inv(c)
    ensures GetTask(c).Answer? ==> GetTask(c).res.code != Wait.Value()
    ensures GetTask(c).Answer? ==> GetTask(c).res.code in {MapperTask.Value(), ReduceTask.Value(), Code.Done.Value()}
  {
  }

  /** A counted success keeps the invariant. */
  lemma TaskSuccessInv(c: State, req: TaskSuccessRequest)
    requires Inv(c)
    requires TaskSuccess(c, req).Ok?
    ensures Inv(TaskSuccess(c, req).next)
  {
    var c' := TaskSuccess(c, req).next;
    if req.taskType == Mapper.Value() {
      RecordOk(c.mappers, c'.mappers, c.tMapperStatus, c.nMapperSuccs, c.nMapper, c.monitors, Mapper, req.taskId);
    } else if req.taskType == Reducer.Value() {
      RecordOk(c.reducers, c'.reducers, c.tReduceStatus, c.nReduceSuccs, c.nReduce, c.monitors, Reducer, req.taskId);
    }
  }

  /** With each handler run as one step, a report that panics on closing a
      closed queue arrives when the phase total has already reached the task
      count; counting it makes some task's counter at least two. */
  lemma ClosePanicIsLateReport(c: State, req: TaskSuccessRequest)
    requires Inv(c)
    requires TaskSuccess(c, req) == Panics(CloseOfClosedChannel)
    ensures ParseTaskType(req.taskType).Some?
    ensures var p := ParseTaskType(req.taskType).value;
      var s := Status(c, p);
      && Total(c, p) >= Size(c, p)
      && 0 <= req.taskId < |s|
      && CountedTwice(s[req.taskId := s[req.taskId] + 1])
  {
    var p := ParseTaskType(req.taskType).value;
    InvPhase(c, p);
    var s := Status(c, p);
    SumIncrement(s, req.taskId);
    var k := FindAtLeastTwoNoZero(s[req.taskId := s[req.taskId] + 1]);
  }

  /** Under the invariant a firing monitor never indexes out of range and
      never blocks on a full queue, and its successor keeps the invariant. */
  lemma MonitorInv(c: State, m: Monitor)
    requires Inv(c)
    requires m in c.monitors
    ensures MonitorFires(c, m) != Panics(IndexOutOfRange)
    ensures !MonitorFires(c, m).Blocks?
    ensures MonitorFires(c, m).Ok? ==> Inv(MonitorFires(c, m).next)
  {
    var mons' := c.monitors - multiset{m};
    match m.phase
    case Mapper =>
      var s := c.tMapperStatus;
      RoomOk(c.mappers, s, c.nMapperSuccs, c.nMapper, c.monitors, Mapper, m.id);
      PhaseOkFrame(c.reducers, c.tReduceStatus, c.nReduceSuccs, c.nReduce, c.monitors, mons', Reducer);
      if s[m.id] != 0 {
        DropMonitorOk(c.mappers, s, c.nMapperSuccs, c.nMapper, c.monitors, Mapper, m.id);
      } else if !c.mappers.closed {
        RequeueOk(c.mappers, s, c.nMapperSuccs, c.nMapper, c.monitors, Mapper, m.id);
      }
    case Reducer =>
      var s := c.tReduceStatus;
      RoomOk(c.reducers, s, c.nReduceSuccs, c.nReduce, c.monitors, Reducer, m.id);
      PhaseOkFrame(c.mappers, c.tMapperStatus, c.nMapperSuccs, c.nMapper, c.monitors, mons', Mapper);
      if s[m.id] != 0 {
        DropMonitorOk(c.reducers, s, c.nReduceSuccs, c.nReduce, c.monitors, Reducer, m.id);
      } else if !c.reducers.closed {
        RequeueOk(c.reducers, s, c.nReduceSuccs, c.nReduce, c.monitors, Reducer, m.id);
      }
  }

  /** With each handler run as one step, a monitor can panic only by
      sending on a closed queue, and then some other task of its phase has
      been counted twice while this one never succeeded: duplicate reports
      are what close a queue early. */
  lemma MonitorPanicMeansDoubleCount(c: State, m: Monitor)
    requires Inv(c)
    requires m in c.monitors
    requires MonitorFires(c, m).Panics?
    ensures MonitorFires(c, m).fault == SendOnClosedChannel
    ensures 0 <= m.id < |Status(c, m.phase)| && Status(c, m.phase)[m.id] == 0
    ensures CountedTwice(Status(c, m.phase))
  {
    MonitorInv(c, m);
    InvPhase(c, m.phase);
    SomeCountedTwice(Status(c, m.phase), m.id);
  }

  /** `Done()` reports true only after the report that brought the reduce
      total to the reduce task count, which closed the reduce queue. */
  lemma DoneOnlyAfterAllReduces(c: State, takeSignal: bool)
    requires Inv(c)
    requires Coordinator.Done(c, takeSignal).0
    ensures c.nReduceSuccs >= c.nReduce && c.reducers.closed
    ensures c.nReduceSuccs == Sum(c.tReduceStatus)
  {
  }

  // ---------------------------------------------------------------------
  // Runs

  lemma StepInv(c: State, e: Event)
    requires Inv(c)
    ensures Step(c, e).Ok? ==> Inv(Step(c, e).next)
    ensures e.TimerFires? && e.m in c.monitors ==> !Step(c, e).Blocks?
  {
    match e
    case CallGetTask => GetTaskInv(c);
    case CallTaskSuccess(req) =>
      if TaskSuccess(c, req).Ok? {
        TaskSuccessInv(c, req);
      }
    case TimerFires(m) =>
      if m in c.monitors {
        MonitorInv(c, m);
      }
    case CallDone(takeSignal) =>
      var c' := Coordinator.Done(c, takeSignal).1;
      assert c'.monitors == c.monitors && c'.mappers == c.mappers && c'.reducers == c.reducers;
  }

  /** Every run keeps the invariant. */
  lemma {:induction false} RunInv(c: State, evs: seq<Event>)
    requires Inv(c)
    ensures Run(c, evs).Ok? ==> Inv(Run(c, evs).next)
    decreases |evs|
  {
    if |evs| > 0 {
      StepInv(c, evs[0]);
      match Step(c, evs[0])
      case Ok(n) => RunInv(n, evs[1..]);
      case Blocks => RunInv(c, evs[1..]);
      case Panics(_) =>
    }
  }

  /** Every state reachable from `MakeCoordinator` keeps the invariant, so
      in every such state the ledger totals are sums of task counters, no
      task has two copies in flight, and an unfinished task is queued or
      monitored. */
  lemma Reachable(files: seq<string>, nReduce: int, evs: seq<Event>)
    requires MakeCoordinator(files, nReduce).Ok?
    requires Run(MakeCoordinator(files, nReduce).next, evs).Ok?
    ensures Inv(Run(MakeCoordinator(files, nReduce).next, evs).next)
  {
    InitInv(files, nReduce);
    RunInv(MakeCoordinator(files, nReduce).next, evs);
  }
}

=== FILE: coordinator_scenarios.dfy ===
/** A concrete run showing what counting every success report means: the
    map total counts reports, not tasks, so a straggler's duplicate report
    can open the map/reduce barrier while a map task has never succeeded,
    after which that task's monitor sends on the closed map queue. */
module CoordinatorScenarios {
  import opened Rpc
  import opened Channel
  import opened Ledger
  import opened Coordinator

  const Files: seq<string> := ["a.txt", "b.txt"]

  /** Two input files and one reduce task. Task 0 is claimed, task 1 is
      claimed, task 0's timer fires and re-enqueues it, a second worker
      claims task 0 again, and both workers of task 0 report success. */
  const Trace: seq<Event> := [
    CallGetTask,
    CallGetTask,
    TimerFires(Monitor(Mapper, 0)),
    CallGetTask,
    CallTaskSuccess(TaskSuccessRequest(1, 0)),
    CallTaskSuccess(TaskSuccessRequest(1, 0))
  ]

  const M0 := Monitor(Mapper, 0)
  const M1 := Monitor(Mapper, 1)

  // The states the trace passes through.
  const S0 := State(Files, Chan([0, 1], 2, false), Chan([0], 1, false), 2, 1, 0, 0, [0, 0], [0], false, multiset{})
  const S1 := S0.(mappers := Chan([1], 2, false), monitors := multiset{M0})
  const S2 := S0.(mappers := Chan([], 2, false), monitors := multiset{M0, M1})
  const S3 := S0.(mappers := Chan([0], 2, false), monitors := multiset{M1})
  const S4 := S2
  const S5 := S4.(nMapperSuccs := 1, tMapperStatus := [1, 0])
  const S6 := S4.(mappers := Chan([], 2, true), nMapperSuccs := 2, tMapperStatus := [2, 0])

  lemma Start()
    ensures MakeCoordinator(Files, 1) == Ok(S0)
  {
    assert Ids(2) == [0, 1];
    assert Ids(1) == [0];
    assert seq(2, _ => 0) == [0, 0];
    assert seq(1, _ => 0) == [0];
  }

  /** Two workers claim the two map tasks. */
  lemma ClaimSteps()
    ensures Step(S0, Trace[0]) == Ok(S1)
    ensures Step(S1, Trace[1]) == Ok(S2)
  {
    assert [0, 1][1..] == [1];
    assert [1][1..] == [];
    assert multiset{M0} + multiset{M1} == multiset{M0, M1};
  }

  /** Task 0's timer puts it back and a third call claims it again. */
  lemma RequeueSteps()
    ensures Step(S2, Trace[2]) == Ok(S3)
    ensures Step(S3, Trace[3]) == Ok(S4)
  {
    assert [0][1..] == [];
    assert multiset{M0, M1} - multiset{M0} == multiset{M1};
    assert multiset{M1} + multiset{M0} == multiset{M0, M1};
  }

  /** Both workers of task 0 report success. */
  lemma ReportSteps()
    ensures Step(S4, Trace[4]) == Ok(S5)
    ensures Step(S5, Trace[5]) == Ok(S6)
  {
    assert [0, 0][0 := 1] == [1, 0];
    assert [1, 0][0 := 2] == [2, 0];
  }

  lemma Steps()
    ensures Step(S0, Trace[0]) == Ok(S1)
    ensures Step(S1, Trace[1]) == Ok(S2)
    ensures Step(S2, Trace[2]) == Ok(S3)
    ensures Step(S3, Trace[3]) == Ok(S4)
    ensures Step(S4, Trace[4]) == Ok(S5)
    ensures Step(S5, Trace[5]) == Ok(S6)
  {
    ClaimSteps();
    RequeueSteps();
    ReportSteps();
  }

  lemma RunTrace()
    ensures Run(S0, Trace) == Ok(S6)
  {
    Steps();
    var t := Trace;
    assert Run(S0, t) == Run(S1, t[1..]);
    assert Run(S1, t[1..]) == Run(S2, t[1..][1..]);
    assert Run(S2, t[1..][1..]) == Run(S3, t[1..][1..][1..]);
    assert Run(S3, t[1..][1..][1..]) == Run(S4, t[1..][1..][1..][1..]);
    assert Run(S4, t[1..][1..][1..][1..]) == Run(S5, t[1..][1..][1..][1..][1..]);
    assert Run(S5, t[1..][1..][1..][1..][1..]) == Run(S6, t[1..][1..][1..][1..][1..][1..]);
    assert t[1..][1..][1..][1..][1..][1..] == [];
  }

  /** After the trace both map reports of task 0 have been counted, the map
      queue is closed, task 1 has never succeeded, and yet `GetTask` hands
      out the reduce task; task 1's monitor then panics. */
  lemma DuplicateReportOpensBarrier()
    ensures MakeCoordinator(Files, 1).Ok?
    ensures Run(MakeCoordinator(Files, 1).next, Trace).Ok?
    ensures var c := Run(MakeCoordinator(Files, 1).next, Trace).next;
      && c.nMapperSuccs == c.nMapper == 2
      && c.tMapperStatus == [2, 0]
      && GetTask(c).Answer? && GetTask(c).res.code == ReduceTask.Value()
      && M1 in c.monitors
      && MonitorFires(c, M1) == Panics(SendOnClosedChannel)
  {
    Start();
    RunTrace();
  }

  // ---------------------------------------------------------------------
  // Interleaved handlers
  //
  // `Step` runs each handler to completion. The Go handlers run in their
  // own goroutines and share the counters through atomics, so two of them
  // can interleave between an atomic add and the load that follows it.
  // The two lemmas below replay such interleavings with the handlers'
  // halves, starting from S2: both map tasks claimed, neither reported.

  const Report0 := TaskSuccessRequest(1, 0)
  const Report1 := TaskSuccessRequest(1, 1)

  /** Run one after the other, the final reports of tasks 0 and 1 close
      the map queue once and nothing panics. Interleaved so that both
      atomic adds come before either load, both handlers see the total at
      the task count and both close the queue: the second close panics
      although every task was counted exactly once. */
  lemma InterleavedReportsCloseTwice()
    ensures TaskSuccess(S2, Report0).Ok?
    ensures TaskSuccess(TaskSuccess(S2, Report0).next, Report1).Ok?
    ensures var both := Record(Record(S2, Mapper, 0), Mapper, 1);
      && both.tMapperStatus == [1, 1] && !CountedTwice(both.tMapperStatus)
      && both.nMapperSuccs >= |both.tMapperStatus|
      && Close(both.mappers).Some?
      && Close(Close(both.mappers).value).None?
  {
    assert [0, 0][0 := 1] == [1, 0];
    assert [1, 0][1 := 1] == [1, 1];
  }

  /** Task 0's monitor loads a zero counter; before it sends, the reports
      of tasks 1 and 0 both arrive and the second closes the map queue; the
      monitor's send then panics, although every task was counted exactly
      once. */
  lemma MonitorRaceSendsOnClosed()
    ensures TaskSuccess(S2, Report1).Ok?
    ensures var c1 := TaskSuccess(S2, Report1).next;
      && c1.tMapperStatus[0] == 0
      && TaskSuccess(c1, Report0).Ok?
      && var c2 := TaskSuccess(c1, Report0).next;
      && c2.tMapperStatus == [1, 1] && !CountedTwice(c2.tMapperStatus)
      && Send(c2.mappers, 0).SendOnClosed?
  {
    assert [0, 0][1 := 1] == [0, 1];
    assert [0, 1][0 := 1] == [1, 1];
  }
}

=== FILE: fnv.dfy ===
/** `ihash` from src/mr/worker.go: the 32-bit FNV-1a hash of the key's
    bytes with the sign bit cleared, and the reduce bucket it selects.
    Hash states are the naturals below 2^32, so Go's wrapping `uint32`
    multiplication is written as a multiplication modulo 2^32. */
module Fnv {
  import opened Common

  const Mod32 := 0x1_0000_0000

  /** FNV-1a 32-bit offset basis and prime. */
  const OffsetBasis := 0x811c9dc5
  const Prime := 0x0100_0193

  /** The bit of `x` of weight `w` (a power of two): 0 or 1. */
  function Bit(x: int, w: int): int
    requires w > 0
  {
    x / w % 2
  }

  /** Bit `w` (a power of two) of `a xor b`, in place. */
  function XorBit(a: int, b: int, w: int): int
    requires w > 0
  {
    ((Bit(a, w) + Bit(b, w)) % 2) * w
  }

  /** Bitwise exclusive or of two values below 256. */
  function Xor8(a: int, b: int): int {
    XorBit(a, b, 1) + XorBit(a, b, 2) + XorBit(a, b, 4) + XorBit(a, b, 8)
    + XorBit(a, b, 16) + XorBit(a, b, 32) + XorBit(a, b, 64) + XorBit(a, b, 128)
  }

  /** `Xor8` is the bitwise exclusive or of two bytes: a byte again, whose
      every bit is set exactly when that bit is set in one operand but not
      in the other. */
  lemma Xor8Bits(a: int, b: int)
    requires 0 <= a < 256 && 0 <= b < 256
    ensures 0 <= Xor8(a, b) < 256
    ensures Bit(Xor8(a, b), 1) == (Bit(a, 1) + Bit(b, 1)) % 2
    ensures Bit(Xor8(a, b), 2) == (Bit(a, 2) + Bit(b, 2)) % 2
    ensures Bit(Xor8(a, b), 4) == (Bit(a, 4) + Bit(b, 4)) % 2
    ensures Bit(Xor8(a, b), 8) == (Bit(a, 8) + Bit(b, 8)) % 2
    ensures Bit(Xor8(a, b), 16) == (Bit(a, 16) + Bit(b, 16)) % 2
    ensures Bit(Xor8(a, b), 32) == (Bit(a, 32) + Bit(b, 32)) % 2
    ensures Bit(Xor8(a, b), 64) == (Bit(a, 64) + Bit(b, 64)) % 2
    ensures Bit(Xor8(a, b), 128) == (Bit(a, 128) + Bit(b, 128)) % 2
  {
    Bits8(Xor8(a, b), (Bit(a, 1) + Bit(b, 1)) % 2, (Bit(a, 2) + Bit(b, 2)) % 2,
          (Bit(a, 4) + Bit(b, 4)) % 2, (Bit(a, 8) + Bit(b, 8)) % 2,
          (Bit(a, 16) + Bit(b, 16)) % 2, (Bit(a, 32) + Bit(b, 32)) % 2,
          (Bit(a, 64) + Bit(b, 64)) % 2, (Bit(a, 128) + Bit(b, 128)) % 2);
  }

  /** The bits of a number written in binary with digits `c0` to `c7`. */
  lemma Bits8(x: int, c0: int, c1: int, c2: int, c3: int, c4: int, c5: int, c6: int, c7: int)
    requires 0 <= c0 <= 1 && 0 <= c1 <= 1 && 0 <= c2 <= 1 && 0 <= c3 <= 1
    requires 0 <= c4 <= 1 && 0 <= c5 <= 1 && 0 <= c6 <= 1 && 0 <= c7 <= 1
    requires x == c0 + 2 * c1 + 4 * c2 + 8 * c3 + 16 * c4 + 32 * c5 + 64 * c6 + 128 * c7
    ensures 0 <= x < 256
    ensures Bit(x, 1) == c0 && Bit(x, 2) == c1 && Bit(x, 4) == c2 && Bit(x, 8) == c3
    ensures Bit(x, 16) == c4 && Bit(x, 32) == c5 && Bit(x, 64) == c6 && Bit(x, 128) == c7
  {
    BitOf(x, 0, c0, c1 + 2 * c2 + 4 * c3 + 8 * c4 + 16 * c5 + 32 * c6 + 64 * c7, 1);
    BitOf(x, c0, c1, c2 + 2 * c3 + 4 * c4 + 8 * c5 + 16 * c6 + 32 * c7, 2);
    BitOf(x, c0 + 2 * c1, c2, c3 + 2 * c4 + 4 * c5 + 8 * c6 + 16 * c7, 4);
    BitOf(x, c0 + 2 * c1 + 4 * c2, c3, c4 + 2 * c5 + 4 * c6 + 8 * c7, 8);
    BitOf(x, c0 + 2 * c1 + 4 * c2 + 8 * c3, c4, c5 + 2 * c6 + 4 * c7, 16);
    BitOf(x, c0 + 2 * c1 + 4 * c2 + 8 * c3 + 16 * c4, c5, c6 + 2 * c7, 32);
    BitOf(x, c0 + 2 * c1 + 4 * c2 + 8 * c3 + 16 * c4 + 32 * c5, c6, c7, 64);
    BitOf(x, c0 + 2 * c1 + 4 * c2 + 8 * c3 + 16 * c4 + 32 * c5 + 64 * c6, c7, 0, 128);
  }

  /** A number written as a low part below `w`, one bit of weight `w` and a
      high part above it has that bit at weight `w`. */
  lemma BitOf(x: int, lo: int, c: int, hi: int, w: int)
    requires w > 0 && 0 <= lo < w && 0 <= c <= 1 && hi >= 0
    requires x == lo + w * c + 2 * w * hi
    ensures Bit(x, w) == c
  {
    var q := c + 2 * hi;
    assert x == w * q + lo;
    DivUnique(x, w, q, lo);
  }

  /** Euclidean division has one quotient. */
  lemma DivUnique(x: int, w: int, q: int, r: int)
    requires w > 0 && 0 <= r < w && x == w * q + r
    ensures x / w == q
  {
    var q' := x / w;
    if q' < q {
      MulGap(w, q', q);
      assert false;
    } else if q < q' {
      MulGap(w, q, q');
      assert false;
    }
  }

  /** Multiples of `w` with different factors are at least `w` apart. */
  lemma {:induction false} MulGap(w: int, a: int, b: int)
    requires w > 0 && a < b
    ensures w * a + w <= w * b
    decreases b - a
  {
    if a + 1 < b {
      MulGap(w, a + 1, b);
    }
    assert w * (a + 1) == w * a + w;
  }


  /** One FNV-1a round: xor the byte into the low eight bits of the state,
      then multiply by the prime modulo 2^32. */
  function Round(h: nat, b: Byte): (r: nat)
    ensures r < Mod32
  {
    ((h - h % 256 + Xor8(h % 256, b as int)) * Prime) % Mod32
  }

  /** Feeds `data` into a hash state `h`, first byte first. */
  function Absorb(h: nat, data: Bytes): (r: nat)
    ensures h < Mod32 ==> r < Mod32
    decreases |data|
  {
    if |data| == 0 then h else Absorb(Round(h, data[0]), data[1..])
  }

  /** `fnv.New32a()`, one `Write`, then `Sum32()`. */
  function Sum32a(data: Bytes): (r: nat)
    ensures r < Mod32
  {
    Absorb(OffsetBasis, data)
  }

  /** `ihash(key)`: `Sum32() & 0x7fffffff`, which on a value below 2^32 is
      its remainder modulo 2^31. Always a non-negative value below 2^31. */
  function IHash(key: Bytes): (r: int)
    ensures 0 <= r < 0x8000_0000
  {
    Sum32a(key) % 0x8000_0000
  }

  /** `ihash(key) % nReduce`; Go's truncating `%` agrees with Dafny's here
      because the hash is non-negative and the divisor positive. */
  function Bucket(key: Bytes, nReduce: int): (r: int)
    requires nReduce > 0
    ensures 0 <= r < nReduce
  {
    IHash(key) % nReduce
  }

  /** Writing the bytes in two pieces gives the same hash state as writing
      them at once. */
  lemma {:induction false} AbsorbConcat(h: nat, a: Bytes, b: Bytes)
    ensures Absorb(h, a + b) == Absorb(Absorb(h, a), b)
    decreases |a|
  {
    if |a| > 0 {
      assert (a + b)[0] == a[0];
      assert (a + b)[1..] == a[1..] + b;
      AbsorbConcat(Round(h, a[0]), a[1..], b);
    } else {
      assert a + b == b;
    }
  }

  /** One round on literal values, given its intermediate results. */
  lemma RoundIs(h: nat, b: Byte, lo: int, x: int, n: nat)
    requires h % 256 == lo
    requires Xor8(lo, b as int) == x
    requires (h - lo + x) * 0x0100_0193 % 0x1_0000_0000 == n
    ensures Round(h, b) == n
  {
  }

  lemma AbsorbCons(h: nat, b: Byte, rest: Bytes)
    ensures Absorb(h, [b] + rest) == Absorb(Round(h, b), rest)
  {
    assert ([b] + rest)[1..] == rest;
  }

  /** Published FNV-1a 32-bit test vectors: "" hashes to 0x811c9dc5 and
      "a" to 0xe40c292c; `ihash` clears the top bit. */
  lemma TestVectors()
    ensures Sum32a([]) == 0x811c9dc5
    ensures Sum32a([0x61]) == 0xe40c292c
    ensures IHash([0x61]) == 0x640c292c
  {
    assert 0x811c9dc5 % 256 == 0xc5;
    assert Xor8(0xc5, 0x61) == 0xa4;
    assert (0x811c9dc5 - 0xc5 + 0xa4) * 0x0100_0193 % 0x1_0000_0000 == 0xe40c292c;
    RoundIs(0x811c9dc5, 0x61, 0xc5, 0xa4, 0xe40c292c);
    AbsorbCons(0x811c9dc5, 0x61, []);
    assert [0x61 as Byte] + [] == [0x61];
  }
}

=== FILE: keyorder.dfy ===
/** Go's `<` on strings (byte-wise lexicographic order), the `ByKey`
    ordering of key/value pairs built on it (src/mr/worker.go), and a sort
    by key. */
module KeyOrder {
  import opened Common

  /** A pair emitted by the Map function. */
  datatype KeyValue = KeyValue(key: Bytes, value: Bytes)

  /** Go's `a < b` on strings: at the first differing byte the smaller byte
      wins, and a proper prefix is smaller than the longer string. */
  predicate Less(a: Bytes, b: Bytes)
    decreases |a|
  {
    if |b| == 0 then false
    else if |a| == 0 then true
    else if a[0] != b[0] then a[0] < b[0]
    else Less(a[1..], b[1..])
  }

  lemma {:induction false} LessIrreflexive(a: Bytes)
    ensures !Less(a, a)
    decreases |a|
  {
    if |a| > 0 {
      LessIrreflexive(a[1..]);
    }
  }

  lemma {:induction false} LessTransitive(a: Bytes, b: Bytes, c: Bytes)
    requires Less(a, b) && Less(b, c)
    ensures Less(a, c)
    decreases |a|
  {
    if |a| > 0 && a[0] == b[0] && b[0] == c[0] {
      LessTransitive(a[1..], b[1..], c[1..]);
    }
  }

  /** Two different strings are ordered one way or the other. */
  lemma {:induction false} LessTotal(a: Bytes, b: Bytes)
    ensures a == b || Less(a, b) || Less(b, a)
    decreases |a|
  {
    if |a| > 0 && |b| > 0 && a[0] == b[0] {
      LessTotal(a[1..], b[1..]);
      if a[1..] == b[1..] {
        assert a == [a[0]] + a[1..] && b == [b[0]] + b[1..];
      }
    }
  }

  /** The two ways round cannot both hold. */
  lemma LessAsymmetric(a: Bytes, b: Bytes)
    requires Less(a, b)
    ensures !Less(b, a)
  {
    if Less(b, a) {
      LessTransitive(a, b, a);
      LessIrreflexive(a);
    }
  }

  /** `!(b < a)`: a is at most b. */
  predicate AtMost(a: Bytes, b: Bytes) {
    !Less(b, a)
  }

  lemma AtMostTransitive(a: Bytes, b: Bytes, c: Bytes)
    requires AtMost(a, b) && AtMost(b, c)
    ensures AtMost(a, c)
  {
    LessTotal(a, b);
    LessTotal(b, c);
    if Less(c, a) {
      if a != b {
        LessTransitive(c, a, b);
      }
    }
  }

  /** What `sort.Sort(ByKey(s))` establishes: no pair is followed by one
      with a smaller key. */
  predicate SortedByKey(s: seq<KeyValue>) {
    forall i, j :: 0 <= i < j < |s| ==> AtMost(s[i].key, s[j].key)
  }

  /** Inserts `kv` into a sorted sequence before the first pair whose key
      is not smaller than its own. */
  function Insert(kv: KeyValue, s: seq<KeyValue>): (r: seq<KeyValue>)
    requires SortedByKey(s)
    ensures SortedByKey(r)
    ensures multiset(r) == multiset(s) + multiset{kv}
    ensures |r| == |s| + 1
    decreases |s|
  {
    if |s| == 0 || !Less(s[0].key, kv.key) then
      InsertFront(kv, s);
      [kv] + s
    else
      var rest := Insert(kv, s[1..]);
      InsertAfter(s[0], kv, s[1..], rest);
      assert s == [s[0]] + s[1..];
      [s[0]] + rest
  }

  lemma InsertFront(kv: KeyValue, s: seq<KeyValue>)
    requires SortedByKey(s)
    requires |s| == 0 || !Less(s[0].key, kv.key)
    ensures SortedByKey([kv] + s)
  {
    var r := [kv] + s;
    forall i, j | 0 <= i < j < |r| ensures AtMost(r[i].key, r[j].key) {
      if i == 0 && j > 1 {
        AtMostTransitive(kv.key, s[0].key, s[j - 1].key);
      }
    }
  }

  lemma InsertAfter(head: KeyValue, kv: KeyValue, tail: seq<KeyValue>, rest: seq<KeyValue>)
    requires SortedByKey([head] + tail)
    requires Less(head.key, kv.key)
    requires SortedByKey(rest)
    requires multiset(rest) == multiset(tail) + multiset{kv}
    ensures SortedByKey([head] + rest)
  {
    var r := [head] + rest;
    forall i, j | 0 <= i < j < |r| ensures AtMost(r[i].key, r[j].key) {
      if i == 0 {
        var x := rest[j - 1];
        assert r[j] == x;
        assert x in multiset(rest);
        if x == kv {
          LessAsymmetric(head.key, kv.key);
        } else {
          assert x in multiset(tail);
          var k :| 0 <= k < |tail| && tail[k] == x;
          assert ([head] + tail)[0] == head;
          assert ([head] + tail)[k + 1] == x;
        }
      } else {
        assert r[i] == rest[i - 1] && r[j] == rest[j - 1];
      }
    }
  }

  /** A sort by key: the result is sorted and a permutation of the input.
      Go's `sort.Sort` is not stable, so it may order pairs with equal keys
      differently; everything proved downstream depends only on these two
      properties. */
  function SortByKey(s: seq<KeyValue>): (r: seq<KeyValue>)
    ensures SortedByKey(r)
    ensures multiset(r) == multiset(s)
    decreases |s|
  {
    if |s| == 0 then []
    else
      assert s == [s[0]] + s[1..];
      Insert(s[0], SortByKey(s[1..]))
  }
}

=== FILE: ledger.dfy ===
/** Facts about the coordinator's task ledger: per-task success counters
    held in a sequence, their total, and how many distinct task ids a
    queue can hold. */
module Ledger {

  /** Total of a sequence of counters. */
  function Sum(s: seq<int>): int
    decreases |s|
  {
    if |s| == 0 then 0 else Sum(s[..|s| - 1]) + s[|s| - 1]
  }

  /** Every counter is non-negative. */
  predicate NonNegative(s: seq<int>) {
    forall i :: 0 <= i < |s| ==> s[i] >= 0
  }

  /** Some counter has reached two. */
  predicate CountedTwice(s: seq<int>) {
    exists i :: 0 <= i < |s| && s[i] >= 2
  }

  /** Incrementing one counter raises the total by exactly one. */
  lemma {:induction false} SumIncrement(s: seq<int>, i: int)
    requires 0 <= i < |s|
    ensures Sum(s[i := s[i] + 1]) == Sum(s) + 1
    decreases |s|
  {
    var t := s[i := s[i] + 1];
    if i == |s| - 1 {
      assert t[..|t| - 1] == s[..|s| - 1];
    } else {
      assert t[..|t| - 1] == s[..|s| - 1][i := s[i] + 1];
      SumIncrement(s[..|s| - 1], i);
    }
  }

  /** A sequence of zeros totals zero. */
  lemma {:induction false} SumZeros(n: nat)
    ensures Sum(seq(n, _ => 0)) == 0
  {
    if n > 0 {
      assert seq(n, _ => 0)[..n - 1] == seq(n - 1, _ => 0);
      SumZeros(n - 1);
    }
  }

  /** Pigeonhole for counters: if non-negative counters total at least
      their number while one of them is still zero, some counter has
      reached two. */
  lemma {:induction false} SomeCountedTwice(s: seq<int>, z: int)
    requires NonNegative(s)
    requires 0 <= z < |s| && s[z] == 0
    requires Sum(s) >= |s|
    ensures CountedTwice(s)
  {
    var k := FindAtLeastTwo(s, z);
  }

  /** Witness for SomeCountedTwice, found by walking down the sequence. */
  lemma {:induction false} FindAtLeastTwo(s: seq<int>, z: int) returns (k: int)
    requires NonNegative(s)
    requires 0 <= z < |s| && s[z] == 0
    requires Sum(s) >= |s|
    ensures 0 <= k < |s| && s[k] >= 2
    decreases |s|
  {
    var n := |s| - 1;
    var init := s[..n];
    assert Sum(s) == Sum(init) + s[n];
    if s[n] >= 2 {
      k := n;
    } else if z == n {
      AllBelowTwo(init);
      k := FindAtLeastTwoNoZero(init);
    } else {
      k := FindAtLeastTwo(init, z);
    }
  }

  /** Counters each below two total at most their number. */
  lemma {:induction false} AllBelowTwo(s: seq<int>)
    ensures (forall i :: 0 <= i < |s| ==> s[i] <= 1) ==> Sum(s) <= |s|
    decreases |s|
  {
    if |s| > 0 {
      AllBelowTwo(s[..|s| - 1]);
    }
  }

  /** Counters totalling more than their number include one at two or more. */
  lemma {:induction false} FindAtLeastTwoNoZero(s: seq<int>) returns (k: int)
    requires Sum(s) > |s|
    ensures 0 <= k < |s| && s[k] >= 2
    decreases |s|
  {
    var n := |s| - 1;
    if s[n] >= 2 {
      k := n;
    } else {
      k := FindAtLeastTwoNoZero(s[..n]);
    }
  }

  /** The ids `0 .. n-1`. */
  function Range(n: nat): (r: set<int>)
    ensures forall i :: i in r <==> 0 <= i < n
  {
    if n == 0 then {} else Range(n - 1) + {n - 1}
  }

  /** There are exactly n ids below n. */
  lemma {:induction false} RangeSize(n: nat)
    ensures |Range(n)| == n
  {
    if n > 0 {
      assert Range(n) == Range(n - 1) + {n - 1};
      RangeSize(n - 1);
    }
  }

  /** A buffer in which no id occurs twice, drawn from a set `ids`, holds
      at most `|ids|` items. */
  lemma {:induction false} DistinctBound(buf: seq<int>, ids: set<int>)
    requires forall v :: multiset(buf)[v] <= 1
    requires forall k :: 0 <= k < |buf| ==> buf[k] in ids
    ensures |buf| <= |ids|
    decreases |buf|
  {
    if |buf| > 0 {
      var first := buf[0];
      var rest := buf[1..];
      assert multiset(buf)[first] <= 1;
      assert buf == [first] + rest;
      assert multiset(buf) == multiset{buf[0]} + multiset(rest);
      forall v ensures multiset(rest)[v] <= 1 {
        assert multiset(buf)[v] <= 1;
      }
      assert multiset(rest)[first] == 0;
      forall k | 0 <= k < |rest| ensures rest[k] in ids - {buf[0]} {
        assert rest[k] in multiset(rest);
        assert buf[k + 1] == rest[k];
      }
      DistinctBound(rest, ids - {buf[0]});
    }
  }
}

=== FILE: naming.dfy ===
/** The file-naming convention shared by map and reduce workers
    (src/mr/worker.go): map task m writes bucket r to `mr-m-r`, reduce task r
    writes `mr-out-r`; numbers are printed in decimal by `%d`. */
module Naming {

  predicate IsDigit(ch: char) {
    '0' <= ch <= '9'
  }

  predicate AllDigits(s: string) {
    forall i :: 0 <= i < |s| ==> IsDigit(s[i])
  }

  function DigitChar(d: int): (ch: char)
    requires 0 <= d < 10
    ensures IsDigit(ch)
  {
    ('0' as int + d) as char
  }

  /** `%d` of a non-negative number: its decimal digits, without leading
      zeros. */
  function Decimal(n: nat): (s: string)
    ensures |s| > 0 && AllDigits(s)
    decreases n
  {
    if n < 10 then [DigitChar(n)] else Decimal(n / 10) + [DigitChar(n % 10)]
  }

  /** Reads decimal digits back into a number. */
  function ParseDecimal(s: string): nat
    requires AllDigits(s)
    decreases |s|
  {
    if |s| == 0 then 0
    else ParseDecimal(s[..|s| - 1]) * 10 + (s[|s| - 1] as int - '0' as int)
  }

  lemma {:induction false} ParseDecimalInverts(n: nat)
    ensures ParseDecimal(Decimal(n)) == n
    decreases n
  {
    if n >= 10 {
      var s := Decimal(n);
      assert s[..|s| - 1] == Decimal(n / 10);
      ParseDecimalInverts(n / 10);
    }
  }

  lemma DecimalInjective(a: nat, b: nat)
    ensures Decimal(a) == Decimal(b) ==> a == b
  {
    ParseDecimalInverts(a);
    ParseDecimalInverts(b);
  }

  /** `%d` of any integer: a minus sign before the digits of a negative
      number. */
  function Signed(n: int): (s: string)
    ensures |s| > 0
    ensures s[0] == '-' <==> n < 0
    ensures n >= 0 ==> AllDigits(s)
    ensures n < 0 ==> AllDigits(s[1..])
  {
    if n < 0 then "-" + Decimal(-n) else Decimal(n)
  }

  lemma SignedInjective(a: int, b: int)
    requires Signed(a) == Signed(b)
    ensures a == b
  {
    if a < 0 {
      assert Decimal(-a) == Signed(a)[1..] == Decimal(-b);
      DecimalInjective(-a, -b);
    } else {
      DecimalInjective(a, b);
    }
  }

  /** `fmt.Sprintf("mr-%d-%d", m, r)`. */
  function IntermediateName(m: int, r: int): string {
    "mr-" + Signed(m) + "-" + Signed(r)
  }

  /** `fmt.Sprintf("mr-out-%d", r)`. */
  function OutputName(r: int): string {
    "mr-out-" + Signed(r)
  }

  /** Position of the first '-' in `s`, or `|s|` when there is none. */
  function FirstDash(s: string): (k: nat)
    ensures k <= |s|
    ensures forall i :: 0 <= i < k ==> s[i] != '-'
    ensures k < |s| ==> s[k] == '-'
    decreases |s|
  {
    if |s| == 0 then 0
    else if s[0] == '-' then 0
    else 1 + FirstDash(s[1..])
  }

  /** In digits followed by a dash, the first dash ends the digits. */
  lemma DashAfterDigits(a: string, b: string)
    requires AllDigits(a)
    ensures FirstDash(a + "-" + b) == |a|
  {
    var s := a + "-" + b;
    var k := FirstDash(s);
    assert s[|a|] == '-';
    assert forall i :: 0 <= i < |a| ==> s[i] == a[i];
    assert k <= |a|;
  }

  /** Where a printed number followed by a dash ends: after the first dash
      that is not a leading minus sign. */
  function SignedEnd(t: string): nat
    requires |t| > 0
  {
    if t[0] == '-' then 1 + FirstDash(t[1..]) else FirstDash(t)
  }

  lemma SignedPrefix(m: int, rest: string)
    ensures var t := Signed(m) + "-" + rest;
      SignedEnd(t) == |Signed(m)| && t[..|Signed(m)|] == Signed(m) && t[|Signed(m)| + 1..] == rest
  {
    var t := Signed(m) + "-" + rest;
    if m < 0 {
      assert t[1..] == Decimal(-m) + "-" + rest;
      DashAfterDigits(Decimal(-m), rest);
    } else {
      DashAfterDigits(Decimal(m), rest);
    }
  }

  /** Different task pairs never share an intermediate file name, negative
      numbers included. */
  lemma IntermediateNameInjective(m: int, r: int, m': int, r': int)
    requires IntermediateName(m, r) == IntermediateName(m', r')
    ensures m == m' && r == r'
  {
    var t := Signed(m) + "-" + Signed(r);
    var t' := Signed(m') + "-" + Signed(r');
    Regroup("mr-", Signed(m), "-", Signed(r));
    Regroup("mr-", Signed(m'), "-", Signed(r'));
    DropPrefix("mr-", t, t');
    SplitInjective(m, Signed(r), m', Signed(r'));
    SignedInjective(r, r');
  }

  lemma Regroup(a: string, b: string, c: string, d: string)
    ensures a + b + c + d == a + (b + c + d)
  {
  }

  lemma DropPrefix(p: string, a: string, b: string)
    requires p + a == p + b
    ensures a == b
  {
    assert a == (p + a)[|p|..];
    assert b == (p + b)[|p|..];
  }

  /** A printed number, a dash, and the rest: the number and the rest can
      be told apart again. */
  lemma SplitInjective(m: int, rest: string, m': int, rest': string)
    requires Signed(m) + "-" + rest == Signed(m') + "-" + rest'
    ensures m == m' && rest == rest'
  {
    var t := Signed(m) + "-" + rest;
    SignedPrefix(m, rest);
    SignedPrefix(m', rest');
    var k := |Signed(m)|;
    assert Signed(m) == t[..k] == Signed(m');
    SignedInjective(m, m');
  }

  /** Different reduce tasks never share an output file name. */
  lemma OutputNameInjective(r: int, r': int)
    requires OutputName(r) == OutputName(r')
    ensures r == r'
  {
    assert Signed(r) == OutputName(r)[7..];
    assert Signed(r') == OutputName(r')[7..];
    SignedInjective(r, r');
  }

  /** An intermediate file is never an output file: after "mr-" one name
      has a digit or a minus sign and the other an 'o'. */
  lemma NamesDisjoint(m: int, r: int, r': int)
    ensures IntermediateName(m, r) != OutputName(r')
  {
    assert IntermediateName(m, r)[3] == Signed(m)[0];
    assert OutputName(r')[3] == 'o';
  }

  /** `mr-out-0` and `mr-0-1`, as Go prints them. */
  lemma Examples()
    ensures OutputName(0) == "mr-out-0"
    ensures IntermediateName(0, 1) == "mr-0-1"
    ensures IntermediateName(12, 3) == "mr-12-3"
    ensures IntermediateName(-1, 2) == "mr--1-2"
  {
    assert Decimal(12) == Decimal(1) + [DigitChar(2)];
  }
}

=== FILE: partition.dfy ===
/** The map-side partition loop of src/mr/worker.go: every pair the Map
    function emits is appended to the bucket `ihash(key) % nReduce`. */
module Partition {
  import opened Common
  import opened KeyOrder
  import opened Fnv

  const NoPairs: seq<KeyValue> := []

  /** Reference definition: the pairs routed to bucket `r`, in emission
      order. */
  function Routed(kva: seq<KeyValue>, r: int, nReduce: int): seq<KeyValue>
    requires nReduce > 0
    decreases |kva|
  {
    if |kva| == 0 then []
    else
      var last := kva[|kva| - 1];
      Routed(kva[..|kva| - 1], r, nReduce) + (if Bucket(last.key, nReduce) == r then [last] else [])
  }

  /** The buckets one after another. */
  function Flatten(bs: seq<seq<KeyValue>>): seq<KeyValue>
    decreases |bs|
  {
    if |bs| == 0 then [] else Flatten(bs[..|bs| - 1]) + bs[|bs| - 1]
  }

  lemma {:induction false} FlattenAppendTo(bs: seq<seq<KeyValue>>, b: int, x: KeyValue)
    requires 0 <= b < |bs|
    ensures multiset(Flatten(bs[b := bs[b] + [x]])) == multiset(Flatten(bs)) + multiset{x}
    decreases |bs|
  {
    var bs' := bs[b := bs[b] + [x]];
    var n := |bs| - 1;
    if b == n {
      assert bs'[..n] == bs[..n];
    } else {
      assert bs'[..n] == bs[..n][b := bs[b] + [x]];
      FlattenAppendTo(bs[..n], b, x);
    }
  }

  lemma {:induction false} FlattenEmpty(n: nat)
    ensures Flatten(seq(n, _ => NoPairs)) == []
  {
    if n > 0 {
      assert seq(n, _ => NoPairs)[..n - 1] == seq(n - 1, _ => NoPairs);
      FlattenEmpty(n - 1);
    }
  }

  /** The buckets agree with the reference for the first `i` pairs and
      hold exactly those pairs. */
  ghost predicate RoutedSoFar(kva: seq<KeyValue>, i: int, nReduce: int, buckets: seq<seq<KeyValue>>)
    requires nReduce > 0
    requires 0 <= i <= |kva|
  {
    && |buckets| == nReduce
    && (forall r :: 0 <= r < nReduce ==> buckets[r] == Routed(kva[..i], r, nReduce))
    && multiset(Flatten(buckets)) == multiset(kva[..i])
  }

  lemma RouteNone(kva: seq<KeyValue>, nReduce: int)
    requires nReduce > 0
    ensures RoutedSoFar(kva, 0, nReduce, seq(nReduce, _ => NoPairs))
  {
    FlattenEmpty(nReduce);
    assert kva[..0] == [];
  }

  lemma RouteOne(kva: seq<KeyValue>, i: int, nReduce: int, buckets: seq<seq<KeyValue>>, h: int)
    requires nReduce > 0
    requires 0 <= i < |kva|
    requires RoutedSoFar(kva, i, nReduce, buckets)
    requires h == Bucket(kva[i].key, nReduce)
    ensures RoutedSoFar(kva, i + 1, nReduce, buckets[h := buckets[h] + [kva[i]]])
  {
    assert kva[..i + 1][..i] == kva[..i];
    assert kva[..i + 1] == kva[..i] + [kva[i]];
    FlattenAppendTo(buckets, h, kva[i]);
    var bs := buckets[h := buckets[h] + [kva[i]]];
    forall r | 0 <= r < nReduce
      ensures bs[r] == Routed(kva[..i + 1], r, nReduce)
    {
    }
  }

  /** The loop `for i < len(kva) { encs[ihash(kva[i].Key) % NReduce].Encode(&kva[i]) }`:
      bucket r receives exactly the pairs routed to it, in emission order,
      and together the buckets hold every emitted pair exactly as often as
      it was emitted. */
  method PartitionPairs(kva: seq<KeyValue>, nReduce: int) returns (buckets: seq<seq<KeyValue>>)
    requires nReduce > 0
    ensures |buckets| == nReduce
    ensures forall r :: 0 <= r < nReduce ==> buckets[r] == Routed(kva, r, nReduce)
    ensures multiset(Flatten(buckets)) == multiset(kva)
  {
    buckets := seq(nReduce, _ => NoPairs);
    RouteNone(kva, nReduce);
    var i := 0;
    while i < |kva|
      invariant 0 <= i <= |kva|
      invariant RoutedSoFar(kva, i, nReduce, buckets)
    {
      var h := Bucket(kva[i].key, nReduce);
      RouteOne(kva, i, nReduce, buckets, h);
      buckets := buckets[h := buckets[h] + [kva[i]]];
      i := i + 1;
    }
    assert kva[..|kva|] == kva;
  }

  /** A pair lands only in the bucket of its key, and every copy of it
      lands there. */
  lemma {:induction false} RoutedToOwnBucket(kva: seq<KeyValue>, nReduce: int, kv: KeyValue, r: int)
    requires nReduce > 0
    ensures kv in Routed(kva, r, nReduce) ==> Bucket(kv.key, nReduce) == r
    ensures Bucket(kv.key, nReduce) == r ==> multiset(Routed(kva, r, nReduce))[kv] == multiset(kva)[kv]
    decreases |kva|
  {
    if |kva| > 0 {
      var init := kva[..|kva| - 1];
      assert kva == init + [kva[|kva| - 1]];
      RoutedToOwnBucket(init, nReduce, kv, r);
    }
  }
}

=== FILE: pipeline.dfy ===
/** How the worker's pieces fit together: what a reduce task reads when
    every map task has written its files, and the output of a job whose
    map tasks and then reduce tasks all run once without failure. */
module Pipeline {
  import opened Common
  import opened Rpc
  import opened KeyOrder
  import opened Fnv
  import opened Naming
  import opened Partition
  import opened Records
  import opened Reduce
  import opened Worker

  /** What reduce task `r` reads from map tasks 0..|kvas|-1, where map task
      `i` emitted `kvas[i]`: each map task's bucket `r`, in task order. */
  function Gathered(kvas: seq<seq<KeyValue>>, r: int, nReduce: int): seq<KeyValue>
    requires nReduce > 0
    decreases |kvas|
  {
    if |kvas| == 0 then []
    else Gathered(kvas[..|kvas| - 1], r, nReduce) + Routed(kvas[|kvas| - 1], r, nReduce)
  }

  /** The keys of bucket `r` among all emitted pairs. */
  function BucketKeys(kvas: seq<seq<KeyValue>>, r: int, nReduce: int): set<Bytes>
    requires nReduce > 0
  {
    set k | k in KeySet(Flatten(kvas)) && Bucket(k, nReduce) == r
  }

  /** A key occurs exactly when it has values. */
  lemma {:induction false} KeyPresent(s: seq<KeyValue>, k: Bytes)
    ensures k in KeySet(s) <==> |ValuesOf(s, k)| > 0
    decreases |s|
  {
    if |s| > 0 {
      var init := s[..|s| - 1];
      KeyPresent(init, k);
      assert s == init + [s[|s| - 1]];
      if k in KeySet(s) {
        var kv :| kv in s && kv.key == k;
        if kv != s[|s| - 1] {
          assert kv in init;
        }
      }
      if k in KeySet(init) {
        var kv :| kv in init && kv.key == k;
        assert kv in s;
      }
    }
  }

  /** Filtering a map task's pairs to bucket `r` keeps all values of the
      keys that hash to `r` and none of the others. */
  lemma {:induction false} ValuesOfRouted(kva: seq<KeyValue>, r: int, nReduce: int, k: Bytes)
    requires nReduce > 0
    ensures ValuesOf(Routed(kva, r, nReduce), k) == if Bucket(k, nReduce) == r then ValuesOf(kva, k) else []
    decreases |kva|
  {
    if |kva| > 0 {
      var init := kva[..|kva| - 1];
      var last := kva[|kva| - 1];
      ValuesOfRouted(init, r, nReduce, k);
      ValuesOfAppend(Routed(init, r, nReduce), if Bucket(last.key, nReduce) == r then [last] else [], k);
      var one: seq<KeyValue> := [last];
      assert one[..0] == [];
      assert ValuesOf(one, k) == if last.key == k then [last.value] else [];
    }
  }

  /** Reduce task `r` receives, key by key, the values every map task
      emitted for the keys of bucket `r`, in map-task order. */
  lemma {:induction false} ValuesOfGathered(kvas: seq<seq<KeyValue>>, r: int, nReduce: int, k: Bytes)
    requires nReduce > 0
    ensures ValuesOf(Gathered(kvas, r, nReduce), k) == if Bucket(k, nReduce) == r then ValuesOf(Flatten(kvas), k) else []
    decreases |kvas|
  {
    if |kvas| > 0 {
      var init := kvas[..|kvas| - 1];
      var last := kvas[|kvas| - 1];
      ValuesOfGathered(init, r, nReduce, k);
      ValuesOfAppend(Gathered(init, r, nReduce), Routed(last, r, nReduce), k);
      ValuesOfAppend(Flatten(init), last, k);
      ValuesOfRouted(last, r, nReduce, k);
    }
  }

  /** The keys reduce task `r` sees are exactly the emitted keys of bucket
      `r`. */
  lemma KeySetGathered(kvas: seq<seq<KeyValue>>, r: int, nReduce: int)
    requires nReduce > 0
    ensures KeySet(Gathered(kvas, r, nReduce)) == BucketKeys(kvas, r, nReduce)
  {
    forall k ensures k in KeySet(Gathered(kvas, r, nReduce)) <==> k in BucketKeys(kvas, r, nReduce) {
      KeyPresent(Gathered(kvas, r, nReduce), k);
      KeyPresent(Flatten(kvas), k);
      ValuesOfGathered(kvas, r, nReduce, k);
    }
  }

  /** Map task `i` wrote bucket `r` of `kvas[i]` to `mr-i-r`, for every
      map task. */
  predicate MapOutputsPresent(files: map<string, seq<Record>>, kvas: seq<seq<KeyValue>>, r: int, nReduce: int)
    requires nReduce > 0
  {
    forall i :: 0 <= i < |kvas| ==>
      IntermediateName(i, r) in files && Decode(files[IntermediateName(i, r)]) == Routed(kvas[i], r, nReduce)
  }

  /** With every map task's files in place, the reduce task's read loop
      finds them all and reads back exactly the gathered bucket. */
  lemma {:induction false} CollectMapOutputs(files: map<string, seq<Record>>, kvas: seq<seq<KeyValue>>, r: int, nReduce: int)
    requires nReduce > 0
    requires MapOutputsPresent(files, kvas, r, nReduce)
    ensures Collect(files, |kvas|, r) == Pairs(Gathered(kvas, r, nReduce))
    decreases |kvas|
  {
    if |kvas| > 0 {
      var init := kvas[..|kvas| - 1];
      var n := |kvas| - 1;
      assert MapOutputsPresent(files, init, r, nReduce);
      CollectMapOutputs(files, init, r, nReduce);
      assert IntermediateName(n, r) in files && Decode(files[IntermediateName(n, r)]) == Routed(kvas[n], r, nReduce);
      assert Gathered(kvas, r, nReduce) == Gathered(init, r, nReduce) + Routed(kvas[n], r, nReduce);
    }
  }

  // ---------------------------------------------------------------------
  // A whole job

  /** The pairs map task `i` emits: Map applied to input file `names[i]`. */
  function Emitted(inputs: map<string, Bytes>, names: seq<string>, mapf: MapFn): (kvas: seq<seq<KeyValue>>)
    requires forall i :: 0 <= i < |names| ==> names[i] in inputs
    ensures |kvas| == |names|
    ensures forall i :: 0 <= i < |names| ==> kvas[i] == mapf(names[i], inputs[names[i]])
  {
    seq(|names|, i requires 0 <= i < |names| => mapf(names[i], inputs[names[i]]))
  }

  /** What reduce task `r` must write for a job whose map tasks emitted
      `kvas`: one line per key of bucket `r`, in increasing key order, each
      with Reduce applied to that key and to every value emitted for it by
      any map task. */
  ghost predicate BucketOutput(lines: seq<OutputLine>, kvas: seq<seq<KeyValue>>, r: int, nReduce: int, reducef: ReduceFn)
    requires nReduce > 0
  {
    && StrictlyIncreasing(lines)
    && LineKeys(lines) == BucketKeys(kvas, r, nReduce)
    && forall l :: 0 <= l < |lines| ==> ReducedFrom(lines[l], Flatten(kvas), reducef)
  }

  /** The reply the coordinator sends for map task `i`. */
  function MapTaskReply(names: seq<string>, i: int, nReduce: int): GetTaskResponse
    requires 0 <= i < |names|
  {
    GetTaskResponse(Mapper.Value(), i, names[i], |names|, nReduce, MapperTask.Value(), "")
  }

  /** The reply the coordinator sends for reduce task `r`. */
  function ReduceTaskReply(nMapper: int, r: int, nReduce: int): GetTaskResponse {
    GetTaskResponse(Reducer.Value(), r, "", nMapper, nReduce, ReduceTask.Value(), "")
  }

  /** After map task `i` has run, map tasks 0..i have their files in
      place for every bucket. */
  lemma MapStep(before: map<string, seq<Record>>, after: map<string, seq<Record>>,
                done: seq<seq<KeyValue>>, kva: seq<KeyValue>, next: seq<seq<KeyValue>>, nReduce: int)
    requires nReduce > 0
    requires next == done + [kva]
    requires forall r :: 0 <= r < nReduce ==> MapOutputsPresent(before, done, r, nReduce)
    requires forall r :: 0 <= r < nReduce ==>
      IntermediateName(|done|, r) in after && Decode(after[IntermediateName(|done|, r)]) == Routed(kva, r, nReduce)
    requires forall name :: !IsMapOutput(|done|, nReduce, name) ==>
      (name in after <==> name in before) && (name in before ==> after[name] == before[name])
    ensures forall r :: 0 <= r < nReduce ==> MapOutputsPresent(after, next, r, nReduce)
  {
    var i := |done|;
    forall r | 0 <= r < nReduce
      ensures MapOutputsPresent(after, next, r, nReduce)
    {
      assert MapOutputsPresent(before, done, r, nReduce);
      forall j | 0 <= j < |next|
        ensures IntermediateName(j, r) in after && Decode(after[IntermediateName(j, r)]) == Routed(next[j], r, nReduce)
      {
        if j < i {
          assert next[j] == done[j];
          assert IntermediateName(j, r) in before && Decode(before[IntermediateName(j, r)]) == Routed(done[j], r, nReduce);
          if IsMapOutput(i, nReduce, IntermediateName(j, r)) {
            var r' :| 0 <= r' < nReduce && IntermediateName(j, r) == IntermediateName(i, r');
            IntermediateNameInjective(j, r, i, r');
          }
        }
      }
    }
  }

  /** After reduce task `r` has run with an acknowledged report, the map
      files of the later buckets are still in place. */
  lemma ReduceKeepsLaterBuckets(before: map<string, seq<Record>>, after: map<string, seq<Record>>,
                                kvas: seq<seq<KeyValue>>, r: int, nReduce: int)
    requires nReduce > 0
    requires forall r' :: r <= r' < nReduce ==> MapOutputsPresent(before, kvas, r', nReduce)
    requires forall name :: name in after <==> name in before && !IsReduceInput(|kvas|, r, name)
    requires forall name :: name in after ==> after[name] == before[name]
    ensures forall r' :: r < r' < nReduce ==> MapOutputsPresent(after, kvas, r', nReduce)
    ensures forall i :: 0 <= i < |kvas| ==> IntermediateName(i, r) !in after
  {
    forall r' | r < r' < nReduce
      ensures MapOutputsPresent(after, kvas, r', nReduce)
    {
      assert MapOutputsPresent(before, kvas, r', nReduce);
      forall i | 0 <= i < |kvas|
        ensures IntermediateName(i, r') in after && Decode(after[IntermediateName(i, r')]) == Routed(kvas[i], r', nReduce)
      {
        if IsReduceInput(|kvas|, r, IntermediateName(i, r')) {
          var i' :| 0 <= i' < |kvas| && IntermediateName(i, r') == IntermediateName(i', r);
          IntermediateNameInjective(i, r', i', r);
        }
      }
    }
    forall i | 0 <= i < |kvas| ensures IntermediateName(i, r) !in after {
      assert IsReduceInput(|kvas|, r, IntermediateName(i, r));
    }
  }

  /** Lines that satisfy the reduce task's contract for the gathered
      bucket are the bucket's output. */
  lemma ReducedBucket(lines: seq<OutputLine>, kvas: seq<seq<KeyValue>>, r: int, nReduce: int, reducef: ReduceFn)
    requires nReduce > 0
    requires StrictlyIncreasing(lines)
    requires LineKeys(lines) == KeySet(Gathered(kvas, r, nReduce))
    requires forall l :: 0 <= l < |lines| ==> ReducedFrom(lines[l], Gathered(kvas, r, nReduce), reducef)
    ensures BucketOutput(lines, kvas, r, nReduce, reducef)
  {
    KeySetGathered(kvas, r, nReduce);
    forall l | 0 <= l < |lines|
      ensures ReducedFrom(lines[l], Flatten(kvas), reducef)
    {
      var k := lines[l].key;
      assert lines[l] in lines;
      assert k in BucketKeys(kvas, r, nReduce);
      ValuesOfGathered(kvas, r, nReduce, k);
      var vs :| multiset(vs) == multiset(ValuesOf(Gathered(kvas, r, nReduce), k)) && lines[l].value == reducef(k, vs);
      assert multiset(vs) == multiset(ValuesOf(Flatten(kvas), k));
    }
  }

  /** The map phase: map task `i` on `names[i]`, for each `i` in turn. */
  method MapPhase(disk: Disk, names: seq<string>, nReduce: int, mapf: MapFn) returns (final: Disk)
    requires forall i :: 0 <= i < |names| ==> names[i] in disk.inputs
    requires nReduce > 0
    ensures final.inputs == disk.inputs
    ensures forall r :: 0 <= r < nReduce ==>
      MapOutputsPresent(final.intermediate, Emitted(disk.inputs, names, mapf), r, nReduce)
  {
    ghost var kvas := Emitted(disk.inputs, names, mapf);
    final := disk;
    var i := 0;
    while i < |names|
      invariant 0 <= i <= |names|
      invariant final.inputs == disk.inputs
      invariant forall r :: 0 <= r < nReduce ==> MapOutputsPresent(final.intermediate, kvas[..i], r, nReduce)
    {
      var res := RunMapTask(final, MapTaskReply(names, i, nReduce), mapf);
      assert kvas[..i + 1] == kvas[..i] + [kvas[i]];
      MapStep(final.intermediate, res.disk.intermediate, kvas[..i], kvas[i], kvas[..i + 1], nReduce);
      final := res.disk;
      i := i + 1;
    }
    assert kvas[..|names|] == kvas;
  }

  /** Reduce task `r` with every map task's files in place and its report
      acknowledged. */
  method ReduceStep(disk: Disk, nMapper: int, ghost kvas: seq<seq<KeyValue>>, r: int, nReduce: int, reducef: ReduceFn)
    returns (final: Disk)
    requires nMapper == |kvas|
    requires 0 <= r < nReduce
    requires forall r' :: r <= r' < nReduce ==> MapOutputsPresent(disk.intermediate, kvas, r', nReduce)
    ensures final.inputs == disk.inputs
    ensures forall r' :: r < r' < nReduce ==> MapOutputsPresent(final.intermediate, kvas, r', nReduce)
    ensures OutputName(r) in final.outputs && BucketOutput(final.outputs[OutputName(r)], kvas, r, nReduce, reducef)
    ensures forall name :: name in disk.outputs && name != OutputName(r) ==>
      name in final.outputs && final.outputs[name] == disk.outputs[name]
    ensures forall i :: 0 <= i < |kvas| ==> IntermediateName(i, r) !in final.intermediate
    ensures forall name :: name in final.intermediate ==> name in disk.intermediate
  {
    CollectMapOutputs(disk.intermediate, kvas, r, nReduce);
    var res := RunReduceTask(disk, ReduceTaskReply(nMapper, r, nReduce), reducef, true);
    ReduceKeepsLaterBuckets(disk.intermediate, res.disk.intermediate, kvas, r, nReduce);
    ReducedBucket(res.disk.outputs[OutputName(r)], kvas, r, nReduce, reducef);
    final := res.disk;
  }

  /** A job run without failure: map task `i` on input `names[i]` for each
      `i` in turn, then reduce task `r` for each bucket `r` in turn, every
      success report acknowledged. Each `mr-out-r` then holds, for every
      key of bucket `r`, Reduce of exactly the values the map tasks emitted
      for it, and no intermediate file of the job is left. */
  method RunJob(disk: Disk, names: seq<string>, nReduce: int, mapf: MapFn, reducef: ReduceFn) returns (final: Disk)
    requires forall i :: 0 <= i < |names| ==> names[i] in disk.inputs
    requires nReduce > 0
    ensures final.inputs == disk.inputs
    ensures forall r :: 0 <= r < nReduce ==>
      OutputName(r) in final.outputs
      && BucketOutput(final.outputs[OutputName(r)], Emitted(disk.inputs, names, mapf), r, nReduce, reducef)
    ensures forall i, r :: 0 <= i < |names| && 0 <= r < nReduce ==> IntermediateName(i, r) !in final.intermediate
  {
    ghost var kvas := Emitted(disk.inputs, names, mapf);
    final := MapPhase(disk, names, nReduce, mapf);
    var r := 0;
    while r < nReduce
      invariant 0 <= r <= nReduce
      invariant final.inputs == disk.inputs
      invariant forall r' :: r <= r' < nReduce ==> MapOutputsPresent(final.intermediate, kvas, r', nReduce)
      invariant forall r' :: 0 <= r' < r ==>
        OutputName(r') in final.outputs && BucketOutput(final.outputs[OutputName(r')], kvas, r', nReduce, reducef)
      invariant forall i, r' :: 0 <= i < |names| && 0 <= r' < r ==> IntermediateName(i, r') !in final.intermediate
    {
      var next := ReduceStep(final, |names|, kvas, r, nReduce, reducef);
      forall r' | 0 <= r' < r ensures OutputName(r') != OutputName(r) {
        if OutputName(r') == OutputName(r) {
          OutputNameInjective(r', r);
        }
      }
      final := next;
      r := r + 1;
    }
  }
}

=== FILE: protocol.dfy ===
/** The coordinator and the worker speak the same protocol: every reply a
    coordinator in a reachable state hands out is one the worker's poll
    loop understands, and the task replies are exactly the ones a fault-free
    job run consumes. */
module Protocol {
  import opened Rpc
  import opened Coordinator
  import opened CoordinatorInv
  import opened Worker
  import opened Pipeline

  /** Under the coordinator's invariant, a GetTask reply never makes a
      worker abort or poll again: MAPPER_TASK replies run map task `i` on
      `files[i]`, REDUCE_TASK replies run a reduce task for a bucket in
      range, and DONE ends the loop. */
  lemma RepliesUnderstood(c: State)
    requires Inv(c)
    ensures GetTask(c).Answer? ==> React(Answered(GetTask(c).res)) in {DoMap, DoReduce, Stop}
    ensures GetTask(c).Answer? && GetTask(c).res.code == MapperTask.Value() ==>
      && React(Answered(GetTask(c).res)) == DoMap
      && 0 <= GetTask(c).res.taskId < |c.files|
      && GetTask(c).res == MapTaskReply(c.files, GetTask(c).res.taskId, c.nReduce)
    ensures GetTask(c).Answer? && GetTask(c).res.code == ReduceTask.Value() ==>
      && React(Answered(GetTask(c).res)) == DoReduce
      && 0 <= GetTask(c).res.taskId < c.nReduce
      && GetTask(c).res == ReduceTaskReply(|c.files|, GetTask(c).res.taskId, c.nReduce)
    ensures GetTask(c).Answer? && GetTask(c).res.code == Code.Done.Value() ==> React(Answered(GetTask(c).res)) == Stop
  {
    NeverWaits(c);
    if GetTask(c).Answer? && GetTask(c).res.code == ReduceTask.Value() {
      assert c.reducers.buf[0] in c.reducers.buf;
    }
  }
}

=== FILE: records.dfy ===
/** Intermediate files as sequences of encoded records. The JSON encoder
    writes one record per pair; on read-back the decoder stops at the first
    record it cannot decode, so a damaged tail silently shortens the input
    (src/mr/worker.go, the `dec.Decode` loop). */
module Records {
  import opened KeyOrder

  datatype Record = Valid(kv: KeyValue) | Corrupt

  /** `enc.Encode` of each pair, in order. */
  function Encode(kvs: seq<KeyValue>): (f: seq<Record>)
    ensures |f| == |kvs|
    ensures forall t :: 0 <= t < |kvs| ==> f[t] == Valid(kvs[t])
  {
    seq(|kvs|, t requires 0 <= t < |kvs| => Valid(kvs[t]))
  }

  /** The decode loop: the pairs of the records before the first corrupt
      one. */
  function Decode(f: seq<Record>): (r: seq<KeyValue>)
    ensures |r| <= |f|
    ensures forall t :: 0 <= t < |r| ==> f[t] == Valid(r[t])
    ensures |r| == |f| || f[|r|].Corrupt?
    decreases |f|
  {
    if |f| == 0 || f[0].Corrupt? then []
    else [f[0].kv] + Decode(f[1..])
  }

  /** What a map worker wrote, a reduce worker reads back in full. */
  lemma DecodeEncode(kvs: seq<KeyValue>)
    ensures Decode(Encode(kvs)) == kvs
  {
  }
}

=== FILE: reduce.dfy ===
/** The reduce step of src/mr/worker.go: after sorting the intermediate
    pairs by key, a scan groups each maximal run of equal keys, calls the
    Reduce function once per run with the run's values, and writes one
    `key value` line per run. */
module Reduce {
  import opened Common
  import opened KeyOrder

  /** One line `<key> <value>\n` of an output file. */
  datatype OutputLine = OutputLine(key: Bytes, value: Bytes)

  /** The values of the pairs with key `k`, in the order they occur. */
  function ValuesOf(s: seq<KeyValue>, k: Bytes): seq<Bytes>
    decreases |s|
  {
    if |s| == 0 then []
    else ValuesOf(s[..|s| - 1], k) + (if s[|s| - 1].key == k then [s[|s| - 1].value] else [])
  }

  /** The distinct keys of a sequence of pairs. */
  function KeySet(s: seq<KeyValue>): set<Bytes> {
    set kv | kv in s :: kv.key
  }

  /** The keys of a sequence of output lines. */
  function LineKeys(out: seq<OutputLine>): set<Bytes> {
    set l | l in out :: l.key
  }

  /** Each line's key is smaller than every later line's key. */
  predicate StrictlyIncreasing(out: seq<OutputLine>) {
    forall a, b :: 0 <= a < b < |out| ==> Less(out[a].key, out[b].key)
  }

  /** `line` holds Reduce applied to its key and to the values `kvs` pairs
      with that key, in some order: the order of equal keys after
      `sort.Sort` is unspecified, so only the multiset of values is fixed. */
  ghost predicate ReducedFrom(line: OutputLine, kvs: seq<KeyValue>, reducef: (Bytes, seq<Bytes>) -> Bytes) {
    exists vs: seq<Bytes> :: multiset(vs) == multiset(ValuesOf(kvs, line.key)) && line.value == reducef(line.key, vs)
  }

  // ---------------------------------------------------------------------
  // Facts about ValuesOf

  lemma {:induction false} ValuesOfAppend(a: seq<KeyValue>, b: seq<KeyValue>, k: Bytes)
    ensures ValuesOf(a + b, k) == ValuesOf(a, k) + ValuesOf(b, k)
    decreases |b|
  {
    if |b| == 0 {
      assert a + b == a;
    } else {
      assert (a + b)[..|a + b| - 1] == a + b[..|b| - 1];
      ValuesOfAppend(a, b[..|b| - 1], k);
    }
  }

  lemma {:induction false} ValuesOfAbsent(s: seq<KeyValue>, k: Bytes)
    requires forall t :: 0 <= t < |s| ==> s[t].key != k
    ensures ValuesOf(s, k) == []
    decreases |s|
  {
    if |s| > 0 {
      ValuesOfAbsent(s[..|s| - 1], k);
    }
  }

  /** The values handed to Reduce for key `k` are, as a multiset, exactly
      the values paired with `k` in the input. */
  lemma {:induction false} ValuesOfCount(s: seq<KeyValue>, k: Bytes, v: Bytes)
    ensures multiset(ValuesOf(s, k))[v] == multiset(s)[KeyValue(k, v)]
    decreases |s|
  {
    if |s| > 0 {
      var init := s[..|s| - 1];
      assert s == init + [s[|s| - 1]];
      ValuesOfCount(init, k, v);
    }
  }

  /** Inputs that are permutations of each other give each key the same
      multiset of values. */
  lemma ValuesOfPermutation(s: seq<KeyValue>, s': seq<KeyValue>, k: Bytes)
    requires multiset(s) == multiset(s')
    ensures multiset(ValuesOf(s, k)) == multiset(ValuesOf(s', k))
  {
    forall v ensures multiset(ValuesOf(s, k))[v] == multiset(ValuesOf(s', k))[v] {
      ValuesOfCount(s, k, v);
      ValuesOfCount(s', k, v);
    }
  }

  // ---------------------------------------------------------------------
  // Facts used by the scan

  /** In a sorted sequence a maximal run `[i, j)` of key `k` holds every
      pair with key `k`. */
  lemma RunHoldsAllValues(kvs: seq<KeyValue>, i: int, j: int, k: Bytes)
    requires SortedByKey(kvs)
    requires 0 <= i < j <= |kvs|
    requires forall t :: i <= t < j ==> kvs[t].key == k
    requires forall t :: 0 <= t < i ==> Less(kvs[t].key, k)
    requires j < |kvs| ==> Less(k, kvs[j].key)
    ensures ValuesOf(kvs, k) == ValuesOf(kvs[i..j], k)
  {
    ValuesOfSplit(kvs, i, j, k);
    BeforeRunAbsent(kvs, i, k);
    AfterRunAbsent(kvs, j, k);
    assert ValuesOf(kvs, k) == [] + ValuesOf(kvs[i..j], k) + [];
  }

  lemma ValuesOfSplit(kvs: seq<KeyValue>, i: int, j: int, k: Bytes)
    requires 0 <= i <= j <= |kvs|
    ensures ValuesOf(kvs, k) == ValuesOf(kvs[..i], k) + ValuesOf(kvs[i..j], k) + ValuesOf(kvs[j..], k)
  {
    var pre, mid, post := kvs[..i], kvs[i..j], kvs[j..];
    assert kvs == pre + mid + post;
    ValuesOfAppend(pre + mid, post, k);
    ValuesOfAppend(pre, mid, k);
  }

  lemma BeforeRunAbsent(kvs: seq<KeyValue>, i: int, k: Bytes)
    requires 0 <= i <= |kvs|
    requires forall t :: 0 <= t < i ==> Less(kvs[t].key, k)
    ensures ValuesOf(kvs[..i], k) == []
  {
    var pre := kvs[..i];
    forall t | 0 <= t < |pre| ensures pre[t].key != k {
      LessIrreflexive(k);
    }
    ValuesOfAbsent(pre, k);
  }

  lemma AfterRunAbsent(kvs: seq<KeyValue>, j: int, k: Bytes)
    requires SortedByKey(kvs)
    requires 0 <= j <= |kvs|
    requires j < |kvs| ==> Less(k, kvs[j].key)
    ensures ValuesOf(kvs[j..], k) == []
  {
    var post := kvs[j..];
    forall t | 0 <= t < |post| ensures post[t].key != k {
      AfterRun(kvs, j, j + t, k);
    }
    ValuesOfAbsent(post, k);
  }

  lemma AfterRun(kvs: seq<KeyValue>, j: int, t: int, k: Bytes)
    requires SortedByKey(kvs)
    requires 0 <= j <= t < |kvs|
    requires Less(k, kvs[j].key)
    ensures kvs[t].key != k
  {
    if t == j {
      LessIrreflexive(k);
    } else {
      assert AtMost(kvs[j].key, kvs[t].key);
    }
  }

  /** The key after a maximal run is larger than the run's key. */
  lemma NextKeyLarger(kvs: seq<KeyValue>, i: int, j: int)
    requires SortedByKey(kvs)
    requires 0 <= i < j < |kvs|
    requires kvs[j].key != kvs[i].key
    ensures Less(kvs[i].key, kvs[j].key)
  {
    LessTotal(kvs[i].key, kvs[j].key);
  }

  lemma KeySetExtend(kvs: seq<KeyValue>, i: int, j: int)
    requires 0 <= i < j <= |kvs|
    requires forall t :: i <= t < j ==> kvs[t].key == kvs[i].key
    ensures KeySet(kvs[..j]) == KeySet(kvs[..i]) + {kvs[i].key}
  {
    forall x | x in KeySet(kvs[..j]) ensures x in KeySet(kvs[..i]) + {kvs[i].key} {
      var kv :| kv in kvs[..j] && kv.key == x;
      var t :| 0 <= t < j && kvs[..j][t] == kv;
      if t < i {
        assert kvs[..i][t] == kv;
      }
    }
    assert kvs[..j][i] == kvs[i];
    forall x | x in KeySet(kvs[..i]) ensures x in KeySet(kvs[..j]) {
      var kv :| kv in kvs[..i] && kv.key == x;
      var t :| 0 <= t < i && kvs[..i][t] == kv;
      assert kvs[..j][t] == kv;
    }
  }

  lemma {:induction false} StrictlyIncreasingCount(out: seq<OutputLine>)
    requires StrictlyIncreasing(out)
    ensures |LineKeys(out)| == |out|
    decreases |out|
  {
    if |out| > 0 {
      var init := out[..|out| - 1];
      var last := out[|out| - 1];
      assert out == init + [last];
      assert LineKeys(out) == LineKeys(init) + {last.key};
      forall l | l in init ensures l.key != last.key {
        var a :| 0 <= a < |init| && init[a] == l;
        assert Less(out[a].key, out[|out| - 1].key);
        LessIrreflexive(last.key);
      }
      StrictlyIncreasingCount(init);
    }
  }

  // ---------------------------------------------------------------------
  // The scan

  /** The scan's invariant after the first `i` pairs have been grouped. */
  ghost predicate Scanned(kvs: seq<KeyValue>, reducef: (Bytes, seq<Bytes>) -> Bytes, i: int, out: seq<OutputLine>) {
    && 0 <= i <= |kvs|
    && (i < |kvs| ==> forall t :: 0 <= t < i ==> Less(kvs[t].key, kvs[i].key))
    && StrictlyIncreasing(out)
    && (i < |kvs| ==> forall l :: 0 <= l < |out| ==> Less(out[l].key, kvs[i].key))
    && LineKeys(out) == KeySet(kvs[..i])
    && (forall l :: 0 <= l < |out| ==> out[l].value == reducef(out[l].key, ValuesOf(kvs, out[l].key)))
  }

  /** The inner `for j < len && key == key` loop: the end of the maximal run
      of equal keys that starts at `i`. */
  method RunEnd(kvs: seq<KeyValue>, i: int) returns (j: int)
    requires 0 <= i < |kvs|
    ensures i < j <= |kvs|
    ensures forall t :: i <= t < j ==> kvs[t].key == kvs[i].key
    ensures j < |kvs| ==> kvs[j].key != kvs[i].key
  {
    j := i + 1;
    while j < |kvs| && kvs[j].key == kvs[i].key
      invariant i < j <= |kvs|
      invariant forall t :: i <= t < j ==> kvs[t].key == kvs[i].key
    {
      j := j + 1;
    }
  }

  /** The `values` loop: the values of the run `[i, j)` in order. */
  method RunValues(kvs: seq<KeyValue>, i: int, j: int) returns (values: seq<Bytes>)
    requires 0 <= i < j <= |kvs|
    requires forall t :: i <= t < j ==> kvs[t].key == kvs[i].key
    ensures values == ValuesOf(kvs[i..j], kvs[i].key)
    ensures |values| == j - i
  {
    values := [];
    var k := i;
    while k < j
      invariant i <= k <= j
      invariant values == ValuesOf(kvs[i..k], kvs[i].key)
      invariant |values| == k - i
    {
      assert kvs[i..k + 1][..k - i] == kvs[i..k];
      values := values + [kvs[k].value];
      k := k + 1;
    }
  }

  /** One round of the scan keeps its invariant: the run `[i, j)` becomes
      one line and the scan moves to `j`. */
  lemma ScanStep(kvs: seq<KeyValue>, reducef: (Bytes, seq<Bytes>) -> Bytes, i: int, j: int, out: seq<OutputLine>)
    requires SortedByKey(kvs)
    requires Scanned(kvs, reducef, i, out)
    requires i < j <= |kvs|
    requires forall t :: i <= t < j ==> kvs[t].key == kvs[i].key
    requires j < |kvs| ==> kvs[j].key != kvs[i].key
    ensures Scanned(kvs, reducef, j, out + [OutputLine(kvs[i].key, reducef(kvs[i].key, ValuesOf(kvs[i..j], kvs[i].key)))])
  {
    var key := kvs[i].key;
    if j < |kvs| {
      NextKeyLarger(kvs, i, j);
    }
    RunHoldsAllValues(kvs, i, j, key);
    var line := OutputLine(key, reducef(key, ValuesOf(kvs[i..j], key)));
    var out' := out + [line];
    KeySetExtend(kvs, i, j);
    assert LineKeys(out') == LineKeys(out) + {key};
    if j < |kvs| {
      forall t | 0 <= t < j ensures Less(kvs[t].key, kvs[j].key) {
        if t < i {
          LessTransitive(kvs[t].key, key, kvs[j].key);
        }
      }
      forall l | 0 <= l < |out'| ensures Less(out'[l].key, kvs[j].key) {
        if l < |out| {
          LessTransitive(out[l].key, key, kvs[j].key);
        }
      }
    }
    forall a, b | 0 <= a < b < |out'| ensures Less(out'[a].key, out'[b].key) {
      if b == |out| {
        assert Less(out[a].key, kvs[i].key);
      }
    }
  }

  /** The grouping loop: for a sorted input, one line per distinct key, in
      strictly increasing key order, each holding Reduce applied to that
      key and all of its values. */
  method GroupAndReduce(kvs: seq<KeyValue>, reducef: (Bytes, seq<Bytes>) -> Bytes) returns (out: seq<OutputLine>)
    requires SortedByKey(kvs)
    ensures StrictlyIncreasing(out)
    ensures LineKeys(out) == KeySet(kvs)
    ensures |out| == |KeySet(kvs)|
    ensures forall l :: 0 <= l < |out| ==> out[l].value == reducef(out[l].key, ValuesOf(kvs, out[l].key))
  {
    out := [];
    var i := 0;
    while i < |kvs|
      invariant Scanned(kvs, reducef, i, out)
      decreases |kvs| - i
    {
      var j := RunEnd(kvs, i);
      var values := RunValues(kvs, i, j);
      ScanStep(kvs, reducef, i, j, out);
      out := out + [OutputLine(kvs[i].key, reducef(kvs[i].key, values))];
      i := j;
    }
    assert kvs[..|kvs|] == kvs;
    StrictlyIncreasingCount(out);
  }
}

=== FILE: rpc.dfy ===
/** The RPC vocabulary shared by the coordinator and the workers: task
    types, response codes and the request/response records
    (src/mr/rpc.go). Integer fields stay integers, as on the wire, and the
    two enumerations carry their numeric encoding. */
module Rpc {
  import opened Common

  /** MAPPER = 1, REDUCER = 2. */
  datatype TaskType = Mapper | Reducer {
    function Value(): int {
      match this
      case Mapper => 1
      case Reducer => 2
    }
  }

  /** MAPPER_TASK = 1, REDUCE_TASK = 2, WAIT = 3, DONE = 4. */
  datatype Code = MapperTask | ReduceTask | Wait | Done {
    function Value(): int {
      match this
      case MapperTask => 1
      case ReduceTask => 2
      case Wait => 3
      case Done => 4
    }
  }

  /** Reads a task type off the wire; any other integer is no task type. */
  function ParseTaskType(v: int): (r: Option<TaskType>)
    ensures r.Some? ==> r.value.Value() == v
    ensures r.None? ==> forall t: TaskType :: t.Value() != v
  {
    if v == 1 then Some(Mapper)
    else if v == 2 then Some(Reducer)
    else None
  }

  /** Reads a response code off the wire. */
  function ParseCode(v: int): (r: Option<Code>)
    ensures r.Some? ==> r.value.Value() == v
    ensures r.None? ==> forall c: Code :: c.Value() != v
  {
    if v == 1 then Some(MapperTask)
    else if v == 2 then Some(ReduceTask)
    else if v == 3 then Some(Wait)
    else if v == 4 then Some(Done)
    else None
  }

  /** Every encoded task type and code decodes to itself. */
  lemma CodesRoundTrip(t: TaskType, c: Code)
    ensures ParseTaskType(t.Value()) == Some(t)
    ensures ParseCode(c.Value()) == Some(c)
  {
  }

  /** The reply of `Coordinator.GetTask`. Go zero-initialises the fields a
      reply does not set. */
  datatype GetTaskResponse = GetTaskResponse(
    taskType: int,
    taskId: int,
    mapperFilename: string,
    nMapper: int,
    nReduce: int,
    code: int,
    msg: string)

  /** The zero value of `GetTaskResponse`. */
  const EmptyResponse := GetTaskResponse(0, 0, "", 0, 0, 0, "")

  /** The request of `Coordinator.TaskSuccess`; its reply carries nothing. */
  datatype TaskSuccessRequest = TaskSuccessRequest(taskType: int, taskId: int)
}

=== FILE: worker.dfy ===
/** One MapReduce worker (src/mr/worker.go): the poll loop's reaction to
    each `GetTask` reply, the map task that partitions the Map function's
    pairs into `mr-m-r` files, and the reduce task that gathers the
    `mr-i-r` files, sorts, groups, reduces into `mr-out-r` and, once its
    success report is acknowledged, deletes its inputs. */
module Worker {
  import opened Common
  import opened Rpc
  import opened KeyOrder
  import opened Fnv
  import opened Naming
  import opened Partition
  import opened Records
  import opened Reduce

  /** The shared directory, kept as three namespaces: the job's input
      files, the intermediate record files and the output files. */
  datatype Disk = Disk(
    inputs: map<string, Bytes>,
    intermediate: map<string, seq<Record>>,
    outputs: map<string, seq<OutputLine>>)

  /** The user's Map and Reduce functions. */
  type MapFn = (string, Bytes) -> seq<KeyValue>
  type ReduceFn = (Bytes, seq<Bytes>) -> Bytes

  /** What `call("Coordinator.GetTask", ...)` yields. */
  datatype Reply = NoReply | Answered(resp: GetTaskResponse)

  /** Why a worker process ends abnormally (`log.Fatal` or a runtime
      panic). */
  datatype Crash =
    | RpcFailed            // the GetTask call failed
    | CannotOpen(name: string)
    | NegativeLength       // make([]*os.File, NReduce) with NReduce < 0
    | DivideByZero         // ihash(key) % 0
    | UnsupportedType      // a task type other than MAPPER or REDUCER

  /** What the loop does with one reply. */
  datatype Action = Stop | PollAgain | Abort(reason: Crash) | DoMap | DoReduce

  predicate IsDoneReply(reply: Reply) {
    reply.Answered? && reply.resp.code == Code.Done.Value() && reply.resp.msg == "done"
  }

  /** The checks at the top of the poll loop, in the source's order: a
      failed call is fatal; DONE with message "done" ends the loop; WAIT
      polls again; otherwise the task type alone picks the task, whatever
      the code says. */
  function React(reply: Reply): (a: Action)
    ensures a == Abort(RpcFailed) <==> reply.NoReply?
    ensures a == Stop <==> IsDoneReply(reply)
    ensures a == PollAgain <==> reply.Answered? && reply.resp.code == Wait.Value()
    ensures a == DoMap <==>
      reply.Answered? && !IsDoneReply(reply) && reply.resp.code != Wait.Value() && reply.resp.taskType == Mapper.Value()
    ensures a == DoReduce <==>
      reply.Answered? && !IsDoneReply(reply) && reply.resp.code != Wait.Value() && reply.resp.taskType == Reducer.Value()
    ensures a.Abort? ==> a.reason in {RpcFailed, UnsupportedType}
  {
    match reply
    case NoReply => Abort(RpcFailed)
    case Answered(resp) =>
      if IsDoneReply(reply) then Stop
      else if resp.code == Wait.Value() then PollAgain
      else if resp.taskType == Mapper.Value() then DoMap
      else if resp.taskType == Reducer.Value() then DoReduce
      else Abort(UnsupportedType)
  }

  /** A DONE reply without the message "done" is not an exit: it falls
      through to the task-type dispatch. */
  lemma DoneNeedsMessage()
    ensures React(Answered(EmptyResponse.(code := Code.Done.Value()))) == Abort(UnsupportedType)
    ensures React(Answered(EmptyResponse.(code := Code.Done.Value(), taskType := Mapper.Value()))) == DoMap
  {
  }

  /** The outcome of running one task. */
  datatype TaskResult = Failed(reason: Crash) | Finished(disk: Disk, report: TaskSuccessRequest)

  // ---------------------------------------------------------------------
  // Map task

  /** `name` is one of the files map task `m` writes for `nReduce`
      buckets. */
  predicate IsMapOutput(m: int, nReduce: int, name: string) {
    exists r :: 0 <= r < nReduce && name == IntermediateName(m, r)
  }

  /** Creates `mr-m-r` for every bucket `r` and writes bucket `r` into it,
      replacing any earlier file of that name; no other file changes. */
  method WriteBuckets(files: map<string, seq<Record>>, m: int, buckets: seq<seq<KeyValue>>)
    returns (out: map<string, seq<Record>>)
    ensures forall r :: 0 <= r < |buckets| ==>
      IntermediateName(m, r) in out && out[IntermediateName(m, r)] == Encode(buckets[r])
    ensures forall name :: !IsMapOutput(m, |buckets|, name) ==>
      (name in out <==> name in files) && (name in files ==> out[name] == files[name])
  {
    out := files;
    var i := 0;
    while i < |buckets|
      invariant 0 <= i <= |buckets|
      invariant forall r :: 0 <= r < i ==>
        IntermediateName(m, r) in out && out[IntermediateName(m, r)] == Encode(buckets[r])
      invariant forall name :: !IsMapOutput(m, i, name) ==>
        (name in out <==> name in files) && (name in files ==> out[name] == files[name])
    {
      forall r | 0 <= r < i
        ensures IntermediateName(m, r) != IntermediateName(m, i)
      {
        if IntermediateName(m, r) == IntermediateName(m, i) {
          IntermediateNameInjective(m, r, m, i);
        }
      }
      forall name | !IsMapOutput(m, i + 1, name)
        ensures !IsMapOutput(m, i, name) && name != IntermediateName(m, i)
      {
      }
      out := out[IntermediateName(m, i) := Encode(buckets[i])];
      i := i + 1;
    }
  }

  /** A map task: read the input file, apply Map, and write each pair to
      bucket `ihash(key) % NReduce`; then report success. A missing input,
      a negative NReduce, or pairs with NReduce = 0 crash the worker before
      any file is written. */
  method RunMapTask(disk: Disk, resp: GetTaskResponse, mapf: MapFn) returns (res: TaskResult)
    ensures resp.mapperFilename !in disk.inputs ==> res == Failed(CannotOpen(resp.mapperFilename))
    ensures res.Failed? ==> res.reason in {CannotOpen(resp.mapperFilename), NegativeLength, DivideByZero}
    ensures res.Failed? <==>
      || resp.mapperFilename !in disk.inputs
      || resp.nReduce < 0
      || (resp.nReduce == 0 && |mapf(resp.mapperFilename, disk.inputs[resp.mapperFilename])| > 0)
    ensures resp.mapperFilename in disk.inputs && resp.nReduce < 0 ==> res == Failed(NegativeLength)
    ensures resp.mapperFilename in disk.inputs && resp.nReduce == 0 ==>
      res == if |mapf(resp.mapperFilename, disk.inputs[resp.mapperFilename])| > 0
             then Failed(DivideByZero) else Finished(disk, TaskSuccessRequest(Mapper.Value(), resp.taskId))
    ensures res.Finished? ==>
      && resp.mapperFilename in disk.inputs
      && resp.nReduce >= 0
      && res.report == TaskSuccessRequest(Mapper.Value(), resp.taskId)
      && res.disk.inputs == disk.inputs
      && res.disk.outputs == disk.outputs
    // each bucket file decodes to exactly the pairs routed to it
    ensures res.Finished? ==>
      var kva := mapf(resp.mapperFilename, disk.inputs[resp.mapperFilename]);
      forall r :: 0 <= r < resp.nReduce ==>
        && IntermediateName(resp.taskId, r) in res.disk.intermediate
        && Decode(res.disk.intermediate[IntermediateName(resp.taskId, r)]) == Routed(kva, r, resp.nReduce)
    // every other intermediate file is left alone
    ensures res.Finished? ==> forall name :: !IsMapOutput(resp.taskId, resp.nReduce, name) ==>
      && (name in res.disk.intermediate <==> name in disk.intermediate)
      && (name in disk.intermediate ==> res.disk.intermediate[name] == disk.intermediate[name])
  {
    if resp.mapperFilename !in disk.inputs {
      return Failed(CannotOpen(resp.mapperFilename));
    }
    if resp.nReduce < 0 {
      return Failed(NegativeLength);
    }
    var kva := mapf(resp.mapperFilename, disk.inputs[resp.mapperFilename]);
    var report := TaskSuccessRequest(Mapper.Value(), resp.taskId);
    if resp.nReduce == 0 {
      if |kva| > 0 {
        return Failed(DivideByZero);
      }
      return Finished(disk, report);
    }
    var buckets := PartitionPairs(kva, resp.nReduce);
    var files := WriteBuckets(disk.intermediate, resp.taskId, buckets);
    forall r | 0 <= r < resp.nReduce
      ensures Decode(files[IntermediateName(resp.taskId, r)]) == Routed(kva, r, resp.nReduce)
    {
      DecodeEncode(buckets[r]);
    }
    return Finished(disk.(intermediate := files), report);
  }

  // ---------------------------------------------------------------------
  // Reduce task

  /** What the reduce task read: the name of the first missing
      intermediate file, or every decoded pair in file order. */
  datatype Collected = Missing(name: string) | Pairs(kvs: seq<KeyValue>)

  /** `name` is one of the files reduce task `r` reads when there are
      `nMapper` map tasks. */
  predicate IsReduceInput(nMapper: int, r: int, name: string) {
    exists i :: 0 <= i < nMapper && name == IntermediateName(i, r)
  }

  /** The read loop over `mr-0-r`, ..., `mr-(k-1)-r`: the first missing
      file is fatal; each present file contributes the pairs before its
      first undecodable record. */
  function Collect(files: map<string, seq<Record>>, k: int, r: int): (c: Collected)
    ensures c.Missing? <==> exists i :: 0 <= i < k && IntermediateName(i, r) !in files
    ensures c.Missing? ==> exists i :: && 0 <= i < k && c.name == IntermediateName(i, r) && c.name !in files
                                      && forall j :: 0 <= j < i ==> IntermediateName(j, r) in files
    decreases k
  {
    if k <= 0 then Pairs([])
    else
      match Collect(files, k - 1, r)
      case Missing(name) => Missing(name)
      case Pairs(kvs) =>
        var name := IntermediateName(k - 1, r);
        if name in files then Pairs(kvs + Decode(files[name])) else Missing(name)
  }

  /** `os.Remove` of `mr-0-r`, ..., `mr-(nMapper-1)-r`; removing a missing
      file is a no-op. */
  method RemoveInputs(files: map<string, seq<Record>>, nMapper: int, r: int)
    returns (out: map<string, seq<Record>>)
    ensures forall name :: name in out <==> name in files && !IsReduceInput(nMapper, r, name)
    ensures forall name :: name in out ==> out[name] == files[name]
  {
    out := files;
    var i := 0;
    while i < nMapper
      invariant 0 <= i && (i <= nMapper || i == 0)
      invariant forall name :: name in out <==> name in files && !IsReduceInput(i, r, name)
      invariant forall name :: name in out ==> out[name] == files[name]
    {
      forall name ensures IsReduceInput(i + 1, r, name) <==> IsReduceInput(i, r, name) || name == IntermediateName(i, r) {
        if IsReduceInput(i + 1, r, name) {
          var t :| 0 <= t < i + 1 && name == IntermediateName(t, r);
          if t < i {
            assert IsReduceInput(i, r, name);
          }
        }
      }
      out := out - {IntermediateName(i, r)};
      i := i + 1;
    }
    if nMapper <= 0 {
      forall name ensures !IsReduceInput(nMapper, r, name) { }
    }
  }

  /** Sorts the pairs read by key and reduces each run of equal keys: one
      line per key read, in increasing key order, each with Reduce applied
      to that key's values in some order. */
  method SortAndReduce(kvs: seq<KeyValue>, reducef: ReduceFn) returns (lines: seq<OutputLine>)
    ensures StrictlyIncreasing(lines)
    ensures LineKeys(lines) == KeySet(kvs)
    ensures |lines| == |KeySet(kvs)|
    ensures forall l :: 0 <= l < |lines| ==> ReducedFrom(lines[l], kvs, reducef)
  {
    var sorted := SortByKey(kvs);
    lines := GroupAndReduce(sorted, reducef);
    forall l | 0 <= l < |lines|
      ensures ReducedFrom(lines[l], kvs, reducef)
    {
      ValuesOfPermutation(sorted, kvs, lines[l].key);
      assert multiset(ValuesOf(sorted, lines[l].key)) == multiset(ValuesOf(kvs, lines[l].key));
    }
    assert KeySet(sorted) == KeySet(kvs) by {
      assert forall kv :: kv in sorted <==> kv in kvs by {
        assert forall kv :: kv in sorted <==> kv in multiset(sorted);
        assert forall kv :: kv in kvs <==> kv in multiset(kvs);
      }
    }
  }

  /** A reduce task: gather bucket `r` from every map task, sort by key,
      write one line per distinct key with Reduce applied to all of that
      key's values, and report success; when the report is acknowledged,
      delete the files read. A missing intermediate file crashes the
      worker before anything is written. */
  method RunReduceTask(disk: Disk, resp: GetTaskResponse, reducef: ReduceFn, acked: bool) returns (res: TaskResult)
    ensures res.Failed? <==> exists i :: 0 <= i < resp.nMapper && IntermediateName(i, resp.taskId) !in disk.intermediate
    ensures res.Failed? ==> res.reason.CannotOpen? && IsReduceInput(resp.nMapper, resp.taskId, res.reason.name)
                            && res.reason.name !in disk.intermediate
    ensures res.Finished? ==>
      && res.report == TaskSuccessRequest(Reducer.Value(), resp.taskId)
      && res.disk.inputs == disk.inputs
      && res.disk.outputs.Keys == disk.outputs.Keys + {OutputName(resp.taskId)}
      && (forall name :: name in disk.outputs && name != OutputName(resp.taskId) ==>
            res.disk.outputs[name] == disk.outputs[name])
    // the output file: one line per key read, in increasing key order, each
    // with Reduce applied to that key's values in some order
    ensures res.Finished? ==>
      var kvs := Collect(disk.intermediate, resp.nMapper, resp.taskId).kvs;
      var lines := res.disk.outputs[OutputName(resp.taskId)];
      && StrictlyIncreasing(lines)
      && LineKeys(lines) == KeySet(kvs)
      && |lines| == |KeySet(kvs)|
      && forall l :: 0 <= l < |lines| ==> ReducedFrom(lines[l], kvs, reducef)
    // the files read are deleted exactly when the report was acknowledged
    ensures res.Finished? ==> forall name ::
      name in res.disk.intermediate <==>
        name in disk.intermediate && !(acked && IsReduceInput(resp.nMapper, resp.taskId, name))
    ensures res.Finished? ==> forall name :: name in res.disk.intermediate ==>
      res.disk.intermediate[name] == disk.intermediate[name]
  {
    var r := resp.taskId;
    var got := Collect(disk.intermediate, resp.nMapper, r);
    if got.Missing? {
      return Failed(CannotOpen(got.name));
    }
    var lines := SortAndReduce(got.kvs, reducef);
    var files := disk.intermediate;
    if acked {
      files := RemoveInputs(files, resp.nMapper, r);
    }
    return Finished(Disk(disk.inputs, files, disk.outputs[OutputName(r) := lines]),
                    TaskSuccessRequest(Reducer.Value(), r));
  }

  // ---------------------------------------------------------------------
  // The poll loop

  /** One round trip with the coordinator: the GetTask reply, and whether
      the success report for the task it hands out (if any) is
      acknowledged. */
  datatype Poll = Poll(reply: Reply, acked: bool)

  datatype Ending = Exited | Died(reason: Crash) | OutOfPolls

  /** The success reports sent for the task replies in `polls`, in order:
      one (task type, task id) per map or reduce reply. */
  function TaskReports(polls: seq<Poll>): seq<TaskSuccessRequest>
    decreases |polls|
  {
    if |polls| == 0 then []
    else
      var last := polls[|polls| - 1];
      TaskReports(polls[..|polls| - 1])
      + (if React(last.reply) in {DoMap, DoReduce}
         then [TaskSuccessRequest(last.reply.resp.taskType, last.reply.resp.taskId)] else [])
  }

  lemma TaskReportsPrefix(polls: seq<Poll>, n: nat)
    requires n < |polls|
    ensures TaskReports(polls[..n + 1]) == TaskReports(polls[..n])
      + (if React(polls[n].reply) in {DoMap, DoReduce}
         then [TaskSuccessRequest(polls[n].reply.resp.taskType, polls[n].reply.resp.taskId)] else [])
  {
    assert polls[..n + 1][..n] == polls[..n];
  }

  /** Runs the task a map or reduce reply hands out. On success the report
      names the reply's task type and id, the inputs are untouched and
      every output file stays; a failure is one of that task's crash
      cases. */
  method RunPolled(disk: Disk, poll: Poll, mapf: MapFn, reducef: ReduceFn) returns (res: TaskResult)
    requires React(poll.reply) in {DoMap, DoReduce}
    ensures res.Finished? ==>
      && res.report == TaskSuccessRequest(poll.reply.resp.taskType, poll.reply.resp.taskId)
      && res.disk.inputs == disk.inputs
      && disk.outputs.Keys <= res.disk.outputs.Keys
    ensures res.Failed? && React(poll.reply) == DoMap ==>
      var resp := poll.reply.resp;
      && res.reason in {CannotOpen(resp.mapperFilename), NegativeLength, DivideByZero}
      && (|| resp.mapperFilename !in disk.inputs
          || resp.nReduce < 0
          || (resp.nReduce == 0 && |mapf(resp.mapperFilename, disk.inputs[resp.mapperFilename])| > 0))
    ensures res.Failed? && React(poll.reply) == DoReduce ==>
      var resp := poll.reply.resp;
      && res.reason.CannotOpen?
      && IsReduceInput(resp.nMapper, resp.taskId, res.reason.name)
      && res.reason.name !in disk.intermediate
  {
    if React(poll.reply) == DoMap {
      res := RunMapTask(disk, poll.reply.resp, mapf);
    } else {
      res := RunReduceTask(disk, poll.reply.resp, reducef, poll.acked);
    }
  }

  /** The `for` loop of `Worker`, driven by a finite script of coordinator
      replies. Returns the disk afterwards, the success reports sent, how
      the loop ended and how many polls it consumed. */
  method Serve(disk: Disk, polls: seq<Poll>, mapf: MapFn, reducef: ReduceFn)
    returns (final: Disk, reports: seq<TaskSuccessRequest>, ending: Ending, used: nat)
    ensures used <= |polls|
    ensures ending == OutOfPolls ==> used == |polls| && forall t :: 0 <= t < |polls| ==> React(polls[t].reply) in {PollAgain, DoMap, DoReduce}
    ensures ending.Died? ==> used > 0 && React(polls[used - 1].reply) in {Abort(ending.reason), DoMap, DoReduce}
    ensures ending == Exited ==> used > 0 && IsDoneReply(polls[used - 1].reply)
    ensures ending == Died(RpcFailed) ==> used > 0 && polls[used - 1].reply.NoReply?
    ensures ending != OutOfPolls ==> forall t :: 0 <= t < used - 1 ==> React(polls[t].reply) in {PollAgain, DoMap, DoReduce}
    // workers never touch the inputs, and an output file once written stays
    ensures final.inputs == disk.inputs
    ensures disk.outputs.Keys <= final.outputs.Keys
    // every task reply before the ending runs its task to completion and
    // is reported, in order
    ensures |reports| <= used
    ensures ending == OutOfPolls ==> reports == TaskReports(polls)
    ensures ending != OutOfPolls ==> used > 0 && reports == TaskReports(polls[..used - 1])
    // a death at a task reply is one of that task's crash cases
    ensures ending.Died? && React(polls[used - 1].reply) == DoMap ==>
      var resp := polls[used - 1].reply.resp;
      && ending.reason in {CannotOpen(resp.mapperFilename), NegativeLength, DivideByZero}
      && (|| resp.mapperFilename !in disk.inputs
          || resp.nReduce < 0
          || (resp.nReduce == 0 && |mapf(resp.mapperFilename, disk.inputs[resp.mapperFilename])| > 0))
    ensures ending.Died? && React(polls[used - 1].reply) == DoReduce ==>
      var resp := polls[used - 1].reply.resp;
      && ending.reason.CannotOpen?
      && IsReduceInput(resp.nMapper, resp.taskId, ending.reason.name)
      && ending.reason.name !in final.intermediate
    // a worker told only to wait changes nothing
    ensures (forall t :: 0 <= t < |polls| ==> React(polls[t].reply) == PollAgain) ==>
      final == disk && reports == [] && ending == OutOfPolls
  {
    final, reports, ending, used := disk, [], OutOfPolls, 0;
    while used < |polls|
      invariant used <= |polls|
      invariant forall t :: 0 <= t < used ==> React(polls[t].reply) in {PollAgain, DoMap, DoReduce}
      invariant final.inputs == disk.inputs
      invariant disk.outputs.Keys <= final.outputs.Keys
      invariant |reports| <= used
      invariant reports == TaskReports(polls[..used])
      invariant (forall t :: 0 <= t < used ==> React(polls[t].reply) == PollAgain) ==> final == disk && reports == []
    {
      var poll := polls[used];
      TaskReportsPrefix(polls, used);
      used := used + 1;
      var action := React(poll.reply);
      if action == Stop {
        return final, reports, Exited, used;
      } else if action.Abort? {
        return final, reports, Died(action.reason), used;
      } else if action == DoMap || action == DoReduce {
        var res := RunPolled(final, poll, mapf, reducef);
        if res.Failed? {
          return final, reports, Died(res.reason), used;
        }
        final := res.disk;
        reports := reports + [res.report];
      }
    }
    assert polls[..used] == polls;
  }
}
